=== FILE: README.md ===
# Course marketplace core in Dafny

A functional model of the decision logic of a small course-selling backend
(a Django REST service). Students buy a course and receive a payment link.
A payment provider reports the outcome through a webhook. Students can
cancel an unpaid enrollment and list their orders. An administrator issues
certificate numbers for paid enrollments, and anyone can check a
certificate number.

The whole database is one immutable value `Courses.Db`:

- the course table;
- the lesson table;
- the enrollment ledger.

Each request handler is a pure function from the database and the request
to the response and the database afterwards. Things the handlers read from
the outside world are parameters:

- the current date;
- the fresh order identifier (a `uuid4` hex string);
- the five random digits of a certificate number;
- the primary key and creation timestamp of a new row;
- the random token used to rename cover images.

Modules follow the source files:

| module | file | models |
|---|---|---|
| `Common` | — | `Option`/`Result`, row queries with the three outcomes of an ORM `get` (no row, one row, several rows), string and digit helpers |
| `Students` | students/models.py | the enrollment record, its status keys and labels, ledger integrity |
| `Courses` | courses/models.py | courses, lessons, dates, field bounds, `Lesson.clean`/`save`, deletion guards, `course_image_path` |
| `Serializers` | api/serializers.py | password policy, `DD-MM-YYYY` dates, course/lesson/enrollment output |
| `Admin` | students/admin.py | the `print_certificate` action |
| `Views` | api/views.py | buy, webhook, cancel, certificate check, order list, course detail |

Modelling choices worth knowing:

- **An ORM `get` that meets several rows is modelled.** Two lookups are not backed by a unique constraint: the (user, course) pair in `buy` and the order identifier in the webhook. When two rows match, Django raises `MultipleObjectsReturned` and the request ends in a 500. The model returns `DuplicateEnrollments` and `MultipleOrders` for these. Cancel looks rows up by primary key, which the schema keeps unique, so its `MultipleMatches` outcome cannot arise on a real database. The model keeps the branch only because it uses the same three-way lookup everywhere. The lemmas `BuyKeepsWellFormed` and `CancelKeepsWellFormed` show that buy and cancel never meet several rows on a well-formed database. `WebhookAcknowledged` shows the same for every callback that names an order. A callback without `order_id` can still get 500 on a well-formed database, because several enrollments may have a NULL order (for instance, rows created without one).
- **A webhook without `order_id` matches NULL rows.** Django reads `order_id=None` as `order_id IS NULL`. So a callback that omits the order acts on the single enrollment whose order column is NULL, if there is exactly one. The model keeps this: the order is an `Option<string>`.
- **Buying again keeps a failed status.** When `buy` meets an existing pending or failed enrollment, it replaces only the order identifier. A `failed` row stays `failed` until the next callback. It is not reset to `pending`.
- **Cancelling a paid enrollment answers 418.** The answer is `{"status": "was payed"}` with status 418, as the code does.
- **The certificate check is only a suffix test.** Any non-empty text ending in `1` passes. No stored number is looked up.
- **Prices are integers in cents.** The price column has two decimal places, so it is held as an integer count of cents. The output renders it the way a two-place decimal field does, for example `1000.00`, and `Serializers.ParsePrice` reads it back.
- **Dates are `Date(year, month, day)`.** The year runs from 1 to 9999, as in Python's `datetime.date`.

## Model

| member | source | states |
|---|---|---|
| Common.Find | api/views.py:163 | A single-row lookup finds nothing exactly when no row matches. It finds one row only if that row is the sole match. It reports several exactly when two distinct rows match. |
| Common.CountOneIffUnique | students/admin.py:15-19 | `count() == 1` holds exactly when the single-row lookup on the same selection finds a unique row. |
| Common.ContainsIsSubstring | courses/models.py:114 | Python's `in` on strings holds exactly when the pattern occurs at some position. |
| Common.LastPart | courses/models.py:11 | `split(sep)[-1]` holds no separator and ends the string. It is either the whole string or is preceded by a separator. |
| Common.LastPartAfterSeparator | courses/models.py:11 | Whatever comes before the last separator, the last part is the text after it. |
| Students.ParseKey | students/models.py:10-14 | Only the three stored keys read back as a status, each as the status stored under it. |
| Students.KeyRoundTrip | students/models.py:10-19 | Every status reads back from its key and fits the 10-character status column. |
| Students.KeysAndLabelsDistinct | students/models.py:10-14 | Distinct statuses have distinct keys and distinct labels. No key is also a label. |
| Students.NewEnrollment | students/models.py:16-21 | A row created from its foreign keys alone is `pending`, with no order and no certificate. |
| Students.AppendKeepsWellFormed | api/views.py:80-84 | Adding a row with a fresh key, a fresh order and a new pair keeps the ledger well formed. |
| Courses.FindCourse | api/views.py:71 | A course is found exactly when a row has that key, and the one returned has that key. |
| Courses.EnrollKeepsWellFormed | api/views.py:80-84 | Enrolling in an existing course with fresh identifiers keeps the whole database well formed. |
| Courses.ReorderKeepsWellFormed | api/views.py:91-93 | Re-ordering an enrollment with a fresh order keeps the database well formed. |
| Courses.RestatusKeepsWellFormed | api/views.py:107-112 | A status change keeps the database well formed. |
| Courses.UnenrollKeepsWellFormed | api/views.py:164-165 | Deleting an enrollment keeps the database well formed. |
| Courses.CourseFieldErrors | courses/models.py:21-38 | Each course field is reported exactly when it breaks its bound: name 1..30, description ≤ 100, hours 0..10, price ≥ 100 with at most 8 integer digits, and a cover image present (the field is not optional) whose name passes the `jpg`/`jpeg` extension validator. |
| Courses.ValidCourseBounds | courses/models.py:21-38 | A course that passes field validation has a name and a `jpg`/`jpeg` cover, lasts at most 10 hours and costs at least 100. |
| Courses.BaseSuffix | courses/models.py:36 | The suffix the validator reads from a final path component holds no dot and ends the component. When non-empty, it follows a dot that is not the component's first character. When empty, the component has no dot, or its only dot comes first (a hidden file), or it ends with a dot. |
| Courses.SuffixOfFinal | courses/models.py:36 | Only the name's final `/`-separated component decides its suffix. |
| Courses.CoverVerdictByExtension | courses/models.py:36 | For a name of the form stem, dot, extension, the validator's verdict depends on the extension alone. |
| Courses.CoverSuffixIgnoresCase | courses/models.py:36 | The extension comparison ignores case: `JPG` and `Jpeg` pass, `png` does not. |
| Courses.CoverRejectsHiddenFile | courses/models.py:36 | A hidden file such as `.jpg` is rejected, in any directory, because it has no suffix. |
| Courses.CoverRejectsTrailingDot | courses/models.py:36 | A name ending in a dot is rejected. |
| Courses.CoverRejectsDotlessFile | courses/models.py:36 | A file with no dot in its own name is rejected, even under a directory named like `x.jpg`. |
| Courses.StoredCoverAccepted | courses/models.py:34-38 | An accepted upload (a name without a directory) is still accepted under the `courses/mpic_…` name it is stored with, so editing the saved course later does not fail on its cover. |
| Courses.LessonFieldErrors | courses/models.py:99-105 | Each lesson field is reported exactly when it breaks its bound: name 1..50, non-empty text, link ≤ 200, hours 0..4. |
| Courses.ValidLessonBounds | courses/models.py:99-105 | A lesson that passes field validation lasts at most 4 hours and has a name and a text. |
| Courses.CleanLesson | courses/models.py:107-121 | A non-blank link without `super-tube.cc/video/` is refused first. Otherwise a new lesson whose course key has no row makes the course read raise. A new lesson in an existing course is refused exactly when that course already has five lessons. A saved lesson is checked for its link only. |
| Courses.BlankLinkAccepted | courses/models.py:113-115 | A blank video link is never the reason for a refusal. |
| Courses.SaveNewLesson | courses/models.py:123-129 | `save` of a new lesson fails with the lookup error exactly when its course key has no row, and then writes nothing. Otherwise it appends the lesson and leaves every other row as it was, whatever the course's lesson count. |
| Courses.CreateLesson | courses/models.py:98-129 | Clean-then-save succeeds exactly when no field fails, the course exists and `clean` passes, and it then saves. A missing course with an acceptable link ends in the escaping lookup error. Any other refusal reports the failing fields, whether the course is missing, and the `clean` error. |
| Courses.CreateLessonKeepsWellFormed | courses/models.py:98-129 | A lesson created under a fresh key keeps the database well formed, so every lesson's course exists. |
| Courses.AddLessonKeepsWellFormed | courses/models.py:98 | Appending a lesson with a fresh key to an existing course keeps the database well formed. |
| Courses.CountAppend | courses/models.py:120 | Adding a lesson raises its own course's lesson count by one and no other course's. |
| Courses.CreateLessonKeepsCap | courses/models.py:117-121 | Clean-then-save never lets a course own more than five lessons. |
| Courses.SaveAloneExceedsCap | courses/models.py:123-129 | `save` alone does let a sixth lesson into an existing course. |
| Courses.HasEnrollments | courses/models.py:85 | A course has enrollments exactly when some ledger row references it, whatever its status. |
| Courses.DeleteCourse | courses/models.py:80-87 | Deletion is refused exactly when an enrollment references the course. Otherwise the ledger is unchanged. The remaining courses are exactly the rows at the positions of the other courses, and the remaining lessons exactly the rows at the positions of lessons of other courses, each once, in increasing position. |
| Courses.DeleteLesson | courses/models.py:131-138 | Deletion is refused exactly when the lesson's course has an enrollment. Otherwise courses and ledger are unchanged, and the remaining lessons are exactly the rows at the positions of lessons with another key, each once, in increasing position. |
| Courses.DeleteCourseKeepsWellFormed | courses/models.py:80-87 | A course deletion that goes through keeps the database well formed: keys stay distinct, and no enrollment or lesson is left pointing at the deleted course. |
| Courses.DeleteLessonKeepsWellFormed | courses/models.py:131-138 | A lesson deletion that goes through keeps the database well formed. |
| Common.KeepIsSelection | courses/models.py:87 | The rows a deletion keeps are the rows at the matching positions, in increasing position, each once. |
| Courses.Extension | courses/models.py:11 | The extension holds no dot and ends the file name. It is the whole name or follows a dot, so it is exactly the text after the last dot. |
| Courses.ImagePath | courses/models.py:10-14 | The path is `courses/mpic_`, then the token's first 8 characters, a dot and the extension, and has exactly that length. |
| Courses.ImagePathKeepsExtension | courses/models.py:10-14 | The renamed file has the same extension as the uploaded one. |
| Serializers.Search | api/serializers.py:21-27 | A one-class regular-expression search succeeds exactly when some character is in the class. |
| Serializers.ValidatePassword | api/serializers.py:17-29 | Accepted, unchanged, exactly when the password is at least 3 long and has a lowercase letter, an uppercase letter, a digit and one of `_ # ! %`. Otherwise the error is the first failing check, in the source's order. |
| Serializers.SamplePasswordsAccepted | api/serializers.py:17-29 | `Password1!` and `Password1!#` pass the policy. |
| Serializers.Pad2 | api/serializers.py:44-45 | Two zero-padded digits that read back as the number. |
| Serializers.Pad4 | api/serializers.py:44-45 | Four zero-padded digits that read back as the number. |
| Serializers.FormatDate | api/serializers.py:44-45 | A date renders as ten characters: digits, with dashes at positions 2 and 5. |
| Serializers.ParseDate | api/serializers.py:44-45 | Only well-shaped text that names a real date reads back as a date. |
| Serializers.FormatDateRoundTrip | api/serializers.py:44-45 | A rendered date reads back as the same date. |
| Serializers.ParseDateIsFormatted | api/serializers.py:44-45 | Any text that reads as a date is exactly that date's rendering, so the format is one-to-one. |
| Serializers.DecimalText | courses/models.py:27-31 | A whole number renders as decimal digits without a leading zero, which read back as the number. |
| Serializers.PriceText | courses/models.py:27-31 | A price renders as units without a leading zero, a point and two decimals, with a minus sign exactly when it is negative. The text reads back as the same number of cents. |
| Serializers.SerializeCourse | api/serializers.py:40-56 | The output keeps the key, name, description and hours. `img` is null exactly when the course has no cover, and otherwise is the media address followed by the stored name. Both dates go out in `DD-MM-YYYY` and read back unchanged. The price text reads back as the stored price. |
| Serializers.SerializeLesson | api/serializers.py:58-64 | The lesson output's `description` is the lesson's text content, and the other fields are kept. |
| Serializers.SerializeEnrollment | api/serializers.py:66-79 | `payment_status` reads back as the enrollment's status and is never a display label. |
| Admin.DigitString | students/admin.py:30 | Joining the draws gives one decimal digit per draw, each with the drawn value. |
| Admin.MintCode | students/admin.py:28-32 | A minted number is `ABCDEF`, then the five drawn digits, then `1`: 12 characters. |
| Admin.PrintCertificate | students/admin.py:12-34 | Refused exactly when the selection is not one row. A selected row that is not `success` is refused. An existing number is reused unchanged. Otherwise a new number is minted and stored in that row only. Nothing changes unless a certificate is printed. |
| Admin.PrintTwiceSameCode | students/admin.py:26-34 | Printing again yields the same number and changes nothing, whatever the new draws. |
| Admin.PrintedCodeFits | students/admin.py:28-33 | After printing, every certificate still fits the 12-character column. |
| Admin.PrintKeepsWellFormed | students/admin.py:33-34 | Issuing a certificate keeps the ledger well formed. |
| Views.PaymentUrl | api/views.py:95 | The link points to the provider's pay endpoint and ends with `order_id=<order>`. |
| Views.OrderIdFromPaymentUrl | api/views.py:95 | The order can be recovered from the link as the text after its last `=`. |
| Views.Buy | api/views.py:68-96 | 404 exactly when the course is missing. 400 and no change exactly when `today >= start or today > end`. A new pair gets one `pending` row with the fresh order. A paid pair gets "Already enrolled" and no change. A pending or failed pair gets only a new order. The catalog never changes. |
| Views.BuyDateBoundary | api/views.py:75 | Buying on the start day is refused. On the end day only the start date can refuse. |
| Views.BuyKeepsWellFormed | api/views.py:79-93 | With fresh identifiers, any purchase keeps at most one enrollment per pair and never meets duplicates. |
| Views.BuyNoServerError | api/views.py:68-96 | With fresh identifiers, a purchase on a well-formed database never answers 500. |
| Views.ReportedStatus | api/views.py:104-111 | Only `success` and `failed` are acted on, and `pending` is never set. |
| Views.Webhook | api/views.py:102-116 | An unknown order or an unrecognised status changes nothing. A unique order takes the reported status. Several rows with the order give 500. |
| Views.WebhookOnUniqueOrder | api/views.py:107-116 | With exactly one row carrying the order, the reply is 204 and only that row's status changes. |
| Views.WebhookIdempotent | api/views.py:107-112 | Replaying the same callback gives the same reply and leaves the database as the first call left it. |
| Views.WebhookReplay | api/views.py:107-112 | After the status write on the one row with the order, the same callback finds that row again, answers 204 and writes nothing new. |
| Views.WebhookAcknowledged | api/views.py:102-116 | On a well-formed database every callback naming an order gets 204 and keeps the database well formed. |
| Views.Cancel | api/views.py:161-170 | 404 exactly when the caller owns no row with that key. A pending or failed row is deleted. A paid one answers 418 and is kept. No other row changes. |
| Views.CancelKeepsWellFormed | api/views.py:161-170 | On a well-formed database cancel never meets duplicates, never answers 500, and keeps the database well formed. |
| Views.CheckCertificate | api/views.py:176-187 | Always 200. The result is success exactly when a non-empty code ends in `1`. |
| Views.MintedCodeAccepted | api/views.py:184-185 | Every minted certificate number passes the public check. |
| Views.PrintedCertificateAccepted | students/admin.py:26-34 | A number printed for a row that had none passes the public check. |
| Views.OrderOf | api/serializers.py:66-79 | An order entry carries the enrollment's key and its raw status key. The nested course is the full course output of the enrollment's course. |
| Views.CallerRows | api/views.py:153 | The positions of exactly the caller's rows, each once, in increasing position. There are as many as the caller's row count. |
| Views.MyOrders | api/views.py:152-155 | There is one entry per caller row, as many as the caller's row count. Entry k is the full order entry of the caller's k-th enrollment: its key, its raw status key and its nested course output. Every caller enrollment is listed. |
| Views.LessonRows | api/views.py:64 | The positions of exactly the course's lessons, each once, in increasing position. There are as many as the course's lesson count. |
| Views.LessonsListed | api/views.py:64-65 | Views rendered from all of a course's lesson positions include every lesson of that course. |
| Views.CourseLessons | api/views.py:60-66 | 404 exactly when the course is missing. Otherwise there are as many entries as the course has lessons. Entry k is the course's k-th lesson, serialised, and every lesson of the course appears. |

## Left out

- Courses.CourseFieldErrors: the image handling in `Course.clean` and `Course.save` (the 2 MB size check and the 300×300 thumbnail) is left out, because it needs the file's bytes and an imaging library. The same goes for the admin form's own image field, which opens the upload with that library. The extension validator is modelled on the name's text, with two simplifications. First, lower-casing is ASCII only; no other character lower-cases to a letter of `jpg` or `jpeg`, so the verdict is the same. Second, the final component is the text after the last `/`; `pathlib`'s dropping of a trailing `/` or of `.` components is not modelled.
- Serializers.SerializeCourse: the media address is a parameter. That is the request's scheme and host followed by the media URL prefix; settings are not part of this model. The percent-encoding that the storage applies to unusual characters in the stored name is not modelled.
- Serializers.PriceText: follows the default of rendering decimals as strings. A project setting that switches to JSON numbers is not part of this model.
- Authentication, registration and token plumbing are left out: `AuthView`, user creation, and the authentication classes. All handlers take the caller's user id as given.
- The certificate HTML page, the admin list display, routing, pagination and the exception handler are left out. They are presentation or framework code.
- `EnrollmentViewSet` (api/views.py:118-146) is not modelled separately. The router registers only `courses` (api/urls.py:12-13), so this view set has no route. Its `retrieve` duplicates cancellation on the caller's own rows, as `Views.Cancel` models. Its `list` is the same filter as `MyOrdersView.get`, as `Views.MyOrders` models.
- Concurrency is not modelled: `get_or_create` races, a lesson added between `clean` and `save`, and simultaneous callbacks.
- Courses.LessonFieldErrors: URL syntax checking of `video_link` (Django's `URLField`) is left out. Only the length bound and the host-path test are modelled.
- Row order: neither the order list nor a course's lessons has a declared ordering, so the database returns rows in no fixed order. The model's sequence order (increasing position) stands for that unspecified order. `Views.MyOrders` and `Views.CourseLessons` promise contents and multiplicity; the order in which the database returns rows is outside the model.
- Serializers.ValidatePassword: the `\d` of the digit check is modelled as ASCII `0`-`9`. Python's `re` also matches other Unicode decimal digits, so a password whose only digit is, say, an Arabic-Indic digit passes there and fails here.
- Serializers.ParseDate: accepts only ASCII digits, matching what `Serializers.FormatDate` produces.
- Serializers.FormatDate: always pads the year to four digits. Some platforms' `strftime("%Y")` does not pad years below 1000.
- Views.CheckCertificate: takes text or nothing. A falsy non-string value (`0`, `false`, `[]`) takes the empty-input branch and gets `failed`, as missing input does. A truthy non-string value (a non-zero JSON number, for instance) is left out. On such a value `endswith` raises and the request fails with 500.
- The webhook is always acknowledged with 204, except in one case the model keeps: several rows share the order (500). For a missing order that means several rows with no order; for a given order it cannot happen on a well-formed database.
- The wording of error messages is not modelled: the password policy texts, the validation messages and the response bodies. Each error is a datatype constructor.
- The random token, the order identifier, the new row's key and its timestamp are taken as parameters. They are not generated.

=== FILE: admin.dfy ===
/** Certificate issuance (the `print_certificate` admin action of
    students/admin.py): the selection and status guards, reuse of an existing
    number, and the construction of a fresh one. The printable page is not
    modelled; the action's outcome carries the number it would print.
 */
module Admin {
  import opened Common
  import opened Students

  const ServicePart := "ABCDEF"
  const CheckSuffix := "1"
  const RandomDigits := 5

  /** Five draws of `random.randint(0, 9)`. */
  predicate DigitDraws(digits: seq<int>) {
    |digits| == RandomDigits && forall k :: 0 <= k < |digits| ==> 0 <= digits[k] <= 9
  }

  /** `"".join(str(d) for d in digits)`. */
  function DigitString(digits: seq<int>): (s: string)
    requires forall k :: 0 <= k < |digits| ==> 0 <= digits[k] <= 9
    ensures |s| == |digits|
    ensures forall k :: 0 <= k < |s| ==> IsDigit(s[k]) && DigitValue(s[k]) == digits[k]
    decreases |digits|
  {
    if |digits| == 0 then ""
    else
      DigitCharValue(digits[0]);
      [DigitChar(digits[0])] + DigitString(digits[1..])
  }

  /** The shape of every minted number: the service part, five decimal digits, then "1". */
  predicate IsMintedShape(code: string) {
    && |code| == |ServicePart| + RandomDigits + |CheckSuffix|
    && StartsWith(code, ServicePart)
    && (forall k :: |ServicePart| <= k < |ServicePart| + RandomDigits ==> IsDigit(code[k]))
    && EndsWith(code, CheckSuffix)
  }

  /** A fresh certificate number built from five random digits. */
  function MintCode(digits: seq<int>): (code: string)
    requires DigitDraws(digits)
    ensures IsMintedShape(code)
    ensures |code| == CertificateMaxLength
    ensures forall k :: 0 <= k < RandomDigits ==> DigitValue(code[|ServicePart| + k]) == digits[k]
  {
    ServicePart + DigitString(digits) + CheckSuffix
  }

  /** `queryset.count()`: how many records the selection holds. */
  function SelectionSize(ledger: seq<Enrollment>, selected: set<nat>): nat {
    Count(ledger, (e: Enrollment) => e.id in selected)
  }

  /** The selection is exactly the record at position `i`. */
  predicate SelectsOnly(ledger: seq<Enrollment>, selected: set<nat>, i: int) {
    && 0 <= i < |ledger| && ledger[i].id in selected
    && forall j :: 0 <= j < |ledger| && ledger[j].id in selected ==> j == i
  }

  /** What the action reports. */
  datatype PrintOutcome =
    | SelectExactlyOne      // the selection is not one record
    | OnlyPaidCourses       // the record's status is not `success`
    | Printed(code: string) // the page is rendered with this number

  /** The outcome of the action and the ledger afterwards. */
  datatype PrintResult = PrintResult(outcome: PrintOutcome, ledger: seq<Enrollment>)

  /** `print_certificate` on the records whose keys are in `selected`. */
  function PrintCertificate(ledger: seq<Enrollment>, selected: set<nat>, digits: seq<int>): (r: PrintResult)
    requires DigitDraws(digits)
    ensures r.outcome == SelectExactlyOne <==> SelectionSize(ledger, selected) != 1
    ensures !r.outcome.Printed? ==> r.ledger == ledger
    ensures r.outcome.Printed? ==> exists i :: 0 <= i < |ledger| && ledger[i].id in selected && ledger[i].status == Success
    ensures forall i | 0 <= i < |ledger| && SelectsOnly(ledger, selected, i) ::
      && (r.outcome == OnlyPaidCourses <==> ledger[i].status != Success)
      && (r.outcome.Printed? && HasCertificate(ledger[i]) ==>
            r.outcome.code == ledger[i].certificate.value && r.ledger == ledger)
      && (r.outcome.Printed? && !HasCertificate(ledger[i]) ==>
            r.outcome.code == MintCode(digits)
            && r.ledger == ledger[i := ledger[i].(certificate := Some(MintCode(digits)))])
  {
    var p := (e: Enrollment) => e.id in selected;
    CountOneIffUnique(ledger, p);
    match Find(ledger, p)
    case NoMatch => PrintResult(SelectExactlyOne, ledger)
    case Several => PrintResult(SelectExactlyOne, ledger)
    case Unique(i) =>
      var e := ledger[i];
      if e.status != Success then PrintResult(OnlyPaidCourses, ledger)
      else if HasCertificate(e) then PrintResult(Printed(e.certificate.value), ledger)
      else
        var code := MintCode(digits);
        PrintResult(Printed(code), ledger[i := e.(certificate := Some(code))])
  }

  /** Printing again never changes the number, whatever the new random draws. */
  lemma {:induction false} PrintTwiceSameCode(ledger: seq<Enrollment>, selected: set<nat>, d1: seq<int>, d2: seq<int>)
    requires DigitDraws(d1) && DigitDraws(d2)
    requires PrintCertificate(ledger, selected, d1).outcome.Printed?
    ensures var first := PrintCertificate(ledger, selected, d1);
            PrintCertificate(first.ledger, selected, d2) == first
  {
    var p := (e: Enrollment) => e.id in selected;
    var i := Find(ledger, p).index;
    var after := PrintCertificate(ledger, selected, d1).ledger;
    assert |after| == |ledger|;
    assert forall j :: 0 <= j < |ledger| ==> after[j].id == ledger[j].id;
    assert forall j :: 0 <= j < |ledger| ==> p(after[j]) == p(ledger[j]);
    assert Find(after, p) == Unique(i);
    assert after[i].status == Success && HasCertificate(after[i]);
  }

  /** A minted number fits the 12-character certificate column. */
  lemma PrintedCodeFits(ledger: seq<Enrollment>, selected: set<nat>, digits: seq<int>)
    requires DigitDraws(digits)
    requires forall i :: 0 <= i < |ledger| ==> CertificateFits(ledger[i])
    ensures var after := PrintCertificate(ledger, selected, digits).ledger;
            forall i :: 0 <= i < |after| ==> CertificateFits(after[i])
  {
  }

  /** Issuing touches only the certificate column, so every integrity condition survives. */
  lemma PrintKeepsWellFormed(ledger: seq<Enrollment>, selected: set<nat>, digits: seq<int>)
    requires DigitDraws(digits) && LedgerWellFormed(ledger)
    ensures LedgerWellFormed(PrintCertificate(ledger, selected, digits).ledger)
  {
  }
}

=== FILE: common.dfy ===
/** Shared vocabulary of the model: optional and failure-carrying values, the
    three-way row lookup an ORM `get` performs, and the few string and digit
    operations the rules are stated with.
 */
module Common {

  /** A nullable value (a database NULL, an absent request field). */
  datatype Option<T> = None | Some(value: T)

  /** A value or the error that prevented it. */
  datatype Result<T, E> = Ok(value: T) | Err(error: E)

  type UserId = nat
  type CourseId = nat

  // ---------------------------------------------------------------------------
  // Row queries over a table held as a sequence of records
  // ---------------------------------------------------------------------------

  /** Positions of the rows satisfying `p`, in increasing order (a `filter`). */
  function FindAll<T>(rows: seq<T>, p: T -> bool): (ix: seq<nat>)
    ensures forall k :: 0 <= k < |ix| ==> ix[k] < |rows| && p(rows[ix[k]])
    ensures forall i :: 0 <= i < |rows| && p(rows[i]) ==> i in ix
    ensures forall k, l :: 0 <= k < l < |ix| ==> ix[k] < ix[l]
    decreases |rows|
  {
    if |rows| == 0 then []
    else
      var prefix := FindAll(rows[..|rows| - 1], p);
      if p(rows[|rows| - 1]) then prefix + [|rows| - 1] else prefix
  }

  /** What a single-row `get` finds: nothing (DoesNotExist), exactly one row,
      or several (MultipleObjectsReturned). */
  datatype Lookup = NoMatch | Unique(index: nat) | Several

  function Find<T>(rows: seq<T>, p: T -> bool): (r: Lookup)
    ensures r.NoMatch? <==> forall i :: 0 <= i < |rows| ==> !p(rows[i])
    ensures r.Unique? ==>
      && r.index < |rows| && p(rows[r.index])
      && forall j :: 0 <= j < |rows| && p(rows[j]) ==> j == r.index
    ensures r.Several? <==> exists i, j :: 0 <= i < j < |rows| && p(rows[i]) && p(rows[j])
  {
    var ix := FindAll(rows, p);
    if |ix| == 0 then NoMatch
    else if |ix| == 1 then Unique(ix[0])
    else
      assert p(rows[ix[0]]) && p(rows[ix[1]]);
      Several
  }

  /** Number of rows satisfying `p` (a `count()`). */
  function Count<T>(rows: seq<T>, p: T -> bool): (n: nat)
    ensures n <= |rows|
    ensures n == 0 <==> forall i :: 0 <= i < |rows| ==> !p(rows[i])
    decreases |rows|
  {
    if |rows| == 0 then 0
    else Count(rows[..|rows| - 1], p) + (if p(rows[|rows| - 1]) then 1 else 0)
  }

  /** `count() == 1` exactly when a single-row `get` finds one row. */
  lemma {:induction false} CountOneIffUnique<T>(rows: seq<T>, p: T -> bool)
    ensures Count(rows, p) == 1 <==> Find(rows, p).Unique?
    decreases |rows|
  {
    if |rows| > 0 {
      var front := rows[..|rows| - 1];
      CountOneIffUnique(front, p);
      assert forall i :: 0 <= i < |front| ==> front[i] == rows[i];
      if p(rows[|rows| - 1]) && Count(front, p) == 1 {
        var u := Find(front, p).index;
        assert p(rows[u]) && u < |rows| - 1;
      }
    }
  }

  /** A `filter` has as many rows as its `count()`. */
  lemma {:induction false} FindAllCount<T>(rows: seq<T>, p: T -> bool)
    ensures |FindAll(rows, p)| == Count(rows, p)
    decreases |rows|
  {
    if |rows| > 0 {
      FindAllCount(rows[..|rows| - 1], p);
    }
  }

  /** The rows satisfying `p`, in their original order. */
  function Keep<T>(rows: seq<T>, p: T -> bool): (r: seq<T>)
    ensures |r| <= |rows|
    ensures forall k :: 0 <= k < |r| ==> r[k] in rows && p(r[k])
    ensures forall i :: 0 <= i < |rows| && p(rows[i]) ==> rows[i] in r
    decreases |rows|
  {
    if |rows| == 0 then []
    else
      var prefix := Keep(rows[..|rows| - 1], p);
      assert rows == rows[..|rows| - 1] + [rows[|rows| - 1]];
      if p(rows[|rows| - 1]) then prefix + [rows[|rows| - 1]] else prefix
  }

  /** The rows at positions `ix`, in the order `ix` lists them. */
  function Select<T>(rows: seq<T>, ix: seq<nat>): (r: seq<T>)
    requires forall k :: 0 <= k < |ix| ==> ix[k] < |rows|
    ensures |r| == |ix|
    ensures forall k :: 0 <= k < |ix| ==> r[k] == rows[ix[k]]
  {
    seq(|ix|, k requires 0 <= k < |ix| => rows[ix[k]])
  }

  /** `Keep` is the selection of the rows `FindAll` finds: each kept row
      appears once per matching position, in increasing position. */
  lemma {:induction false} KeepIsSelection<T>(rows: seq<T>, p: T -> bool)
    ensures Keep(rows, p) == Select(rows, FindAll(rows, p))
    decreases |rows|
  {
    if |rows| > 0 {
      var front := rows[..|rows| - 1];
      var ix := FindAll(front, p);
      KeepIsSelection(front, p);
      assert Select(rows, ix) == Keep(front, p) by {
        forall k | 0 <= k < |ix| ensures Select(rows, ix)[k] == Select(front, ix)[k] {
          assert rows[ix[k]] == front[ix[k]];
        }
      }
      if p(rows[|rows| - 1]) {
        var all := ix + [|rows| - 1];
        assert FindAll(rows, p) == all;
        assert Select(rows, all) == Select(rows, ix) + [rows[|rows| - 1]];
      } else {
        assert FindAll(rows, p) == ix;
      }
    }
  }

  /** Rows selected at strictly increasing positions keep the distinct keys
      the table had. */
  lemma SelectKeepsKeysDistinct<T, K>(rows: seq<T>, ix: seq<nat>, key: T -> K)
    requires forall k :: 0 <= k < |ix| ==> ix[k] < |rows|
    requires forall k, m :: 0 <= k < m < |ix| ==> ix[k] < ix[m]
    requires forall i, j :: 0 <= i < j < |rows| ==> key(rows[i]) != key(rows[j])
    ensures var r := Select(rows, ix); forall a, b :: 0 <= a < b < |r| ==> key(r[a]) != key(r[b])
  {
    var r := Select(rows, ix);
    forall a, b | 0 <= a < b < |r| ensures key(r[a]) != key(r[b]) {
      assert r[a] == rows[ix[a]] && r[b] == rows[ix[b]] && ix[a] < ix[b];
    }
  }

  /** The first position of `x` in `s`. */
  function IndexOf<T(==)>(s: seq<T>, x: T): (k: nat)
    requires x in s
    ensures k < |s| && s[k] == x
    ensures forall j :: 0 <= j < k ==> s[j] != x
  {
    if s[0] == x then 0 else 1 + IndexOf(s[1..], x)
  }

  /** The table without the row at position `i`. */
  function RemoveAt<T>(rows: seq<T>, i: nat): (r: seq<T>)
    requires i < |rows|
    ensures |r| == |rows| - 1
    ensures forall k :: 0 <= k < i ==> r[k] == rows[k]
    ensures forall k :: i <= k < |r| ==> r[k] == rows[k + 1]
  {
    rows[..i] + rows[i + 1..]
  }

  // ---------------------------------------------------------------------------
  // Strings
  // ---------------------------------------------------------------------------

  predicate StartsWith(s: string, prefix: string) {
    |prefix| <= |s| && s[..|prefix|] == prefix
  }

  predicate EndsWith(s: string, suffix: string) {
    |suffix| <= |s| && s[|s| - |suffix|..] == suffix
  }

  predicate OccursAt(s: string, pattern: string, i: nat) {
    i + |pattern| <= |s| && s[i..i + |pattern|] == pattern
  }

  /** `pattern` is a substring of `s`. */
  ghost predicate Occurs(s: string, pattern: string) {
    exists i: nat :: OccursAt(s, pattern, i)
  }

  /** Python's `pattern in s`, scanning left to right. */
  function Contains(s: string, pattern: string): bool
    decreases |s|
  {
    if |s| < |pattern| then false
    else StartsWith(s, pattern) || Contains(s[1..], pattern)
  }

  lemma {:induction false} ContainsIsSubstring(s: string, pattern: string)
    ensures Contains(s, pattern) <==> Occurs(s, pattern)
    decreases |s|
  {
    if |s| < |pattern| {
      assert forall i: nat :: !OccursAt(s, pattern, i);
    } else if StartsWith(s, pattern) {
      assert OccursAt(s, pattern, 0);
    } else {
      ContainsIsSubstring(s[1..], pattern);
      forall i: nat | OccursAt(s, pattern, i)
        ensures i >= 1 && OccursAt(s[1..], pattern, i - 1)
      {
        if i >= 1 {
          OccursShift(s, pattern, i - 1);
        }
      }
      if Contains(s[1..], pattern) {
        var i: nat :| OccursAt(s[1..], pattern, i);
        OccursShift(s, pattern, i);
      }
    }
  }

  /** Dropping the first character shifts every occurrence one place left. */
  lemma OccursShift(s: string, pattern: string, i: nat)
    requires |s| >= 1
    ensures OccursAt(s[1..], pattern, i) <==> OccursAt(s, pattern, i + 1)
  {
  }

  /** `s.split(sep)[-1]`: the text after the last `sep`, or all of `s` when
      it has none. */
  function LastPart(s: string, sep: char): (part: string)
    ensures sep !in part
    ensures EndsWith(s, part)
    ensures part == s || (|part| < |s| && s[|s| - |part| - 1] == sep)
    decreases |s|
  {
    if |s| == 0 then ""
    else if s[|s| - 1] == sep then ""
    else
      var front := s[..|s| - 1];
      assert s == front + [s[|s| - 1]];
      LastPart(front, sep) + [s[|s| - 1]]
  }

  /** Appending a character extends the last part, or empties it when the
      character is the separator. */
  lemma LastPartAppend(s: string, c: char, sep: char)
    ensures LastPart(s + [c], sep) == if c == sep then [] else LastPart(s, sep) + [c]
  {
    assert (s + [c])[..|s|] == s;
  }

  /** Whatever precedes a separator, the last part of `prefix + [sep] + tail`
      is `tail` when `tail` holds no separator. */
  lemma {:induction false} LastPartAfterSeparator(prefix: string, sep: char, tail: string)
    requires sep !in tail
    ensures LastPart(prefix + [sep] + tail, sep) == tail
  {
    var s := prefix + [sep] + tail;
    var part := LastPart(s, sep);
    assert s[|s| - |tail| - 1] == sep;
    assert forall k :: 0 <= k < |tail| ==> s[|s| - |tail| + k] == tail[k];
  }

  // ---------------------------------------------------------------------------
  // Decimal digits
  // ---------------------------------------------------------------------------

  predicate IsDigit(c: char) {
    '0' <= c <= '9'
  }

  /** Python's `str(d)` for a single decimal digit. */
  function DigitChar(d: int): (c: char)
    requires 0 <= d <= 9
    ensures IsDigit(c)
  {
    ('0' as int + d) as char
  }

  function DigitValue(c: char): (d: int)
    requires IsDigit(c)
    ensures 0 <= d <= 9
  {
    c as int - '0' as int
  }

  /** A digit written out reads back as itself. */
  lemma DigitCharValue(d: int)
    requires 0 <= d <= 9
    ensures DigitValue(DigitChar(d)) == d
  {
  }
}

=== FILE: courses.dfy ===
/** The catalog (courses/models.py): courses and their lessons, the field
    bounds validated at write time, the lesson checks run by `Lesson.clean`,
    the deletion guards tied to enrollments, and the renaming of cover images.
    The database state `Db` is defined here because the deletion guards read
    the enrollment ledger.
 */
module Courses {
  import opened Common
  import opened Students

  // ---------------------------------------------------------------------------
  // Calendar dates
  // ---------------------------------------------------------------------------

  datatype Date = Date(year: int, month: int, day: int)

  predicate IsLeapYear(y: int) {
    (y % 4 == 0 && y % 100 != 0) || y % 400 == 0
  }

  function DaysInMonth(y: int, m: int): (n: int)
    requires 1 <= m <= 12
    ensures 28 <= n <= 31
  {
    if m == 2 then (if IsLeapYear(y) then 29 else 28)
    else if m == 4 || m == 6 || m == 9 || m == 11 then 30
    else 31
  }

  /** The range of Python's `datetime.date`. */
  predicate ValidDate(d: Date) {
    && 1 <= d.year <= 9999
    && 1 <= d.month <= 12
    && 1 <= d.day <= DaysInMonth(d.year, d.month)
  }

  /** `a` is strictly earlier than `b` in the calendar (`a < b` on dates). */
  predicate Before(a: Date, b: Date) {
    || a.year < b.year
    || (a.year == b.year && a.month < b.month)
    || (a.year == b.year && a.month == b.month && a.day < b.day)
  }

  // ---------------------------------------------------------------------------
  // Entities
  // ---------------------------------------------------------------------------

  /** A course. `priceCents` is the two-decimal price scaled by 100. */
  datatype Course = Course(
    id: CourseId,
    name: string,
    description: string,
    hours: int,
    priceCents: int,
    startDate: Date,
    endDate: Date,
    img: string)

  /** A lesson, owned by the course `course`. `videoLink` may be blank. */
  datatype Lesson = Lesson(
    id: nat,
    course: CourseId,
    name: string,
    textContent: string,
    videoLink: string,
    hours: int)

  /** The whole database: catalog tables and the enrollment ledger. */
  datatype Db = Db(courses: seq<Course>, lessons: seq<Lesson>, enrollments: seq<Enrollment>)

  /** The primary keys present in the course table. */
  function CourseIds(courses: seq<Course>): set<CourseId> {
    set c | c in courses :: c.id
  }

  /** The course row with primary key `id`, if any. */
  function FindCourse(courses: seq<Course>, id: CourseId): (r: Option<Course>)
    ensures r.None? <==> forall k :: 0 <= k < |courses| ==> courses[k].id != id
    ensures r.Some? <==> id in CourseIds(courses)
    ensures r.Some? ==> r.value in courses && r.value.id == id
  {
    var ix := FindAll(courses, (c: Course) => c.id == id);
    if |ix| == 0 then None else Some(courses[ix[0]])
  }

  /** Every stored course date is a real date. */
  predicate DatesValid(courses: seq<Course>) {
    forall c | c in courses :: ValidDate(c.startDate) && ValidDate(c.endDate)
  }

  /** What the database itself guarantees of the catalog: course keys are
      unique, every stored date is a real date, and every enrollment's course
      foreign key resolves. */
  predicate CatalogSound(db: Db) {
    && (forall i, j :: 0 <= i < j < |db.courses| ==> db.courses[i].id != db.courses[j].id)
    && DatesValid(db.courses)
    && (forall e | e in db.enrollments :: e.course in CourseIds(db.courses))
  }

  /** The catalog is sound, lesson keys are unique and resolve, and the ledger
      is well formed. */
  predicate WellFormed(db: Db) {
    && CatalogSound(db)
    && (forall i, j :: 0 <= i < j < |db.lessons| ==> db.lessons[i].id != db.lessons[j].id)
    && (forall l | l in db.lessons :: l.course in CourseIds(db.courses))
    && LedgerWellFormed(db.enrollments)
  }

  /** A new enrollment with a fresh key and order for a pair not yet enrolled,
      in an existing course, keeps the database well formed. */
  lemma EnrollKeepsWellFormed(db: Db, e: Enrollment)
    requires WellFormed(db) && FreshId(db.enrollments, e.id)
    requires e.orderId.Some? && FreshOrderId(db.enrollments, e.orderId.value)
    requires forall i :: 0 <= i < |db.enrollments| ==>
      db.enrollments[i].user != e.user || db.enrollments[i].course != e.course
    requires e.course in CourseIds(db.courses)
    ensures WellFormed(db.(enrollments := db.enrollments + [e]))
  {
    AppendKeepsWellFormed(db.enrollments, e);
  }

  /** Giving one enrollment a fresh order keeps the database well formed. */
  lemma ReorderKeepsWellFormed(db: Db, i: nat, order: string)
    requires WellFormed(db) && i < |db.enrollments| && FreshOrderId(db.enrollments, order)
    ensures WellFormed(db.(enrollments := db.enrollments[i := db.enrollments[i].(orderId := Some(order))]))
  {
  }

  /** Changing one enrollment's status keeps the database well formed. */
  lemma RestatusKeepsWellFormed(db: Db, i: nat, s: Status)
    requires WellFormed(db) && i < |db.enrollments|
    ensures WellFormed(db.(enrollments := db.enrollments[i := db.enrollments[i].(status := s)]))
  {
  }

  /** Deleting one enrollment keeps the database well formed. */
  lemma UnenrollKeepsWellFormed(db: Db, i: nat)
    requires WellFormed(db) && i < |db.enrollments|
    ensures WellFormed(db.(enrollments := RemoveAt(db.enrollments, i)))
  {
  }

  // ---------------------------------------------------------------------------
  // Field bounds
  // ---------------------------------------------------------------------------

  const CourseNameMax := 30
  const CourseDescriptionMax := 100
  const CourseHoursMax := 10
  /** MinValueValidator(100) on the price, in cents. */
  const PriceMinCents := 10000
  /** max_digits=10 with 2 decimal places: at most 8 digits before the point. */
  const PriceLimitCents := 10_000_000_000
  const LessonNameMax := 50
  const LessonHoursMax := 4
  /** Default max_length of a URLField. */
  const VideoLinkMax := 200

  datatype CourseField = CourseName | CourseDescription | CourseHours | CoursePrice | CourseImage

  predicate CourseFieldOk(c: Course, f: CourseField) {
    match f
    case CourseName => 0 < |c.name| <= CourseNameMax
    case CourseDescription => |c.description| <= CourseDescriptionMax
    case CourseHours => 0 <= c.hours <= CourseHoursMax
    case CoursePrice => PriceMinCents <= c.priceCents && -PriceLimitCents < c.priceCents < PriceLimitCents
    case CourseImage => c.img != "" && CoverExtensionOk(c.img)
  }

  /** `PurePath.suffix[1:]` of a final component `base`: the text after its
      last dot. It is empty when `base` has no dot, when its only dot is its
      first character (a hidden file), or when it ends with a dot. */
  function BaseSuffix(base: string): (ext: string)
    ensures '.' !in ext && EndsWith(base, ext)
    ensures ext != "" ==> |ext| + 1 < |base| && base[|base| - |ext| - 1] == '.'
    ensures ext == "" ==>
      '.' !in base || (base[0] == '.' && '.' !in base[1..]) || base[|base| - 1] == '.'
  {
    var ext := LastPart(base, '.');
    if ext == base || |ext| + 1 == |base| then "" else ext
  }

  /** `Path(name).suffix[1:]`: the suffix of the last '/'-separated component. */
  function Suffix(name: string): (ext: string)
    ensures ext == BaseSuffix(LastPart(name, '/'))
  {
    BaseSuffix(LastPart(name, '/'))
  }

  function LowerChar(ch: char): char {
    if 'A' <= ch <= 'Z' then (ch as int + 32) as char else ch
  }

  /** The suffix, lower-cased, is `jpg` or `jpeg`. Only ASCII capitals
      lower-case to the letters of those words, so ASCII lower-casing decides
      it. */
  predicate CoverSuffixOk(e: string) {
    || (|e| == 3 && LowerChar(e[0]) == 'j' && LowerChar(e[1]) == 'p' && LowerChar(e[2]) == 'g')
    || (|e| == 4 && LowerChar(e[0]) == 'j' && LowerChar(e[1]) == 'p' && LowerChar(e[2]) == 'e'
        && LowerChar(e[3]) == 'g')
  }

  /** `FileExtensionValidator(['jpg', 'jpeg'])` on the cover. */
  predicate CoverExtensionOk(name: string) {
    CoverSuffixOk(Suffix(name))
  }

  /** The verdict is a function of the suffix. */
  lemma CoverVerdictOfSuffix(name: string, ext: string)
    requires Suffix(name) == ext
    ensures CoverExtensionOk(name) <==> CoverSuffixOk(ext)
  {
  }

  /** Only the final component counts. */
  lemma SuffixOfFinal(dir: string, base: string)
    requires '/' !in base
    ensures Suffix(dir + ['/'] + base) == Suffix(base)
  {
    LastPartAfterSeparator(dir, '/', base);
  }

  lemma NoSlashAroundDot(stem: string, ext: string)
    requires '/' !in stem && '/' !in ext
    ensures '/' !in stem + ['.'] + ext
  {
    var base := stem + ['.'] + ext;
    forall k | 0 <= k < |base| ensures base[k] != '/' {
      if k < |stem| {
        assert base[k] == stem[k];
      } else if k > |stem| {
        assert base[k] == ext[k - |stem| - 1];
      }
    }
  }

  /** A stem, a dot and a dotless extension: the suffix is the extension. */
  lemma SuffixOfStem(stem: string, ext: string)
    requires '/' !in stem && '/' !in ext && '.' !in ext && |stem| > 0 && |ext| > 0
    ensures Suffix(stem + ['.'] + ext) == ext
  {
    var base := stem + ['.'] + ext;
    assert LastPart(base, '/') == base by {
      NoSlashAroundDot(stem, ext);
    }
    LastPartAfterSeparator(stem, '.', ext);
  }

  /** For a file named stem, dot, extension, the verdict depends on the
      extension alone. */
  lemma CoverVerdictByExtension(stem: string, ext: string)
    requires '/' !in stem && '/' !in ext && '.' !in ext && |stem| > 0 && |ext| > 0
    ensures CoverExtensionOk(stem + ['.'] + ext) <==> CoverSuffixOk(ext)
  {
    SuffixOfStem(stem, ext);
  }

  /** The comparison ignores case: `photo.JPG` passes, `photo.png` does not. */
  lemma CoverSuffixIgnoresCase()
    ensures CoverSuffixOk("JPG") && CoverSuffixOk("Jpeg") && !CoverSuffixOk("png")
  {
  }

  /** A component whose only dot is its first character has no suffix. */
  lemma HiddenFileSuffix(ext: string)
    requires '/' !in ext && '.' !in ext
    ensures '/' !in ['.'] + ext && Suffix(['.'] + ext) == ""
  {
    var base := ['.'] + ext;
    assert base == [] + ['.'] + ext;
    NoSlashAroundDot([], ext);
    assert LastPart(base, '/') == base;
    LastPartAfterSeparator([], '.', ext);
  }

  /** A hidden file (`.jpg`) has no suffix, wherever it sits. */
  lemma CoverRejectsHiddenFile(dir: string, ext: string)
    requires '/' !in ext && '.' !in ext
    ensures !CoverExtensionOk(['.'] + ext)
    ensures !CoverExtensionOk(dir + ['/'] + (['.'] + ext))
  {
    var base := ['.'] + ext;
    HiddenFileSuffix(ext);
    CoverVerdictOfSuffix(base, "");
    SuffixOfFinal(dir, base);
    CoverVerdictOfSuffix(dir + ['/'] + base, "");
  }

  /** A name ending in a dot has no suffix. */
  lemma CoverRejectsTrailingDot(name: string)
    ensures !CoverExtensionOk(name + ['.'])
  {
    var base := LastPart(name + ['.'], '/');
    assert base == LastPart(name, '/') + ['.'] by {
      LastPartAppend(name, '.', '/');
    }
    assert LastPart(base, '.') == [] by {
      LastPartAppend(LastPart(name, '/'), '.', '.');
    }
  }

  /** A dot in a directory name is not the file's suffix: `x.jpg/photo` has
      none. */
  lemma CoverRejectsDotlessFile(dir: string, base: string)
    requires '/' !in base && '.' !in base
    ensures !CoverExtensionOk(dir + ['/'] + base)
  {
    assert Suffix(base) == "" by {
      assert LastPart(base, '/') == base;
      assert LastPart(base, '.') == base;
    }
    SuffixOfFinal(dir, base);
    CoverVerdictOfSuffix(dir + ['/'] + base, "");
  }

  /** The fields `full_clean` rejects; an empty set means the course can be written. */
  function CourseFieldErrors(c: Course): (errs: set<CourseField>)
    ensures forall f :: f in errs <==> !CourseFieldOk(c, f)
  {
    set f | f in {CourseName, CourseDescription, CourseHours, CoursePrice, CourseImage} && !CourseFieldOk(c, f)
  }

  /** A course that passes field validation has a name and a `jpg`/`jpeg`
      cover, lasts at most 10 hours and costs at least 100. */
  lemma ValidCourseBounds(c: Course)
    requires CourseFieldErrors(c) == {}
    ensures c.hours <= CourseHoursMax && c.priceCents >= PriceMinCents
    ensures 0 < |c.name| <= CourseNameMax && c.img != "" && CoverExtensionOk(c.img)
  {
    assert CourseFieldOk(c, CourseHours) && CourseFieldOk(c, CoursePrice) && CourseFieldOk(c, CourseName);
    assert CourseFieldOk(c, CourseImage);
  }

  datatype LessonField = LessonName | LessonText | LessonVideo | LessonHours

  predicate LessonFieldOk(l: Lesson, f: LessonField) {
    match f
    case LessonName => 0 < |l.name| <= LessonNameMax
    case LessonText => 0 < |l.textContent|
    case LessonVideo => |l.videoLink| <= VideoLinkMax
    case LessonHours => 0 <= l.hours <= LessonHoursMax
  }

  function LessonFieldErrors(l: Lesson): (errs: set<LessonField>)
    ensures forall f :: f in errs <==> !LessonFieldOk(l, f)
  {
    set f | f in {LessonName, LessonText, LessonVideo, LessonHours} && !LessonFieldOk(l, f)
  }

  /** A lesson that passes field validation lasts at most 4 hours and has a name and a text. */
  lemma ValidLessonBounds(l: Lesson)
    requires LessonFieldErrors(l) == {}
    ensures 0 <= l.hours <= LessonHoursMax
    ensures 0 < |l.name| <= LessonNameMax && |l.textContent| > 0
  {
    assert LessonFieldOk(l, LessonHours) && LessonFieldOk(l, LessonName) && LessonFieldOk(l, LessonText);
  }

  // ---------------------------------------------------------------------------
  // Lesson.clean and Lesson.save
  // ---------------------------------------------------------------------------

  const VideoHostPath := "super-tube.cc/video/"
  const MaxLessonsPerCourse := 5

  /** What `Lesson.clean` stops at: a link off the video host, a sixth lesson,
      or a course key with no row, whose lookup raises `DoesNotExist` instead
      of a validation error. */
  datatype CleanError = BadVideoLink | TooManyLessons | NoSuchCourse

  /** Membership of a lesson in `course`, as a row test. */
  function OfCourse(course: CourseId): Lesson -> bool {
    (l: Lesson) => l.course == course
  }

  /** `course.lessons.count()`. */
  function LessonCount(lessons: seq<Lesson>, course: CourseId): nat {
    Count(lessons, OfCourse(course))
  }

  /** The link is blank or points at the video host. */
  ghost predicate LinkAccepted(l: Lesson) {
    l.videoLink == "" || Occurs(l.videoLink, VideoHostPath)
  }

  /** `Lesson.clean`: a non-blank link must contain the video host path (checked
      first). A lesson not yet saved (`isNew`, no primary key) then reads its
      course: a missing course makes that read raise, and a course that already
      has five lessons refuses the new one. */
  function CleanLesson(db: Db, l: Lesson, isNew: bool): (r: Option<CleanError>)
    ensures r == Some(BadVideoLink) <==> !LinkAccepted(l)
    ensures r == Some(NoSuchCourse) <==>
      LinkAccepted(l) && isNew && l.course !in CourseIds(db.courses)
    ensures r == Some(TooManyLessons) <==>
      && LinkAccepted(l) && isNew && l.course in CourseIds(db.courses)
      && LessonCount(db.lessons, l.course) >= MaxLessonsPerCourse
    ensures !isNew ==> r.None? || r == Some(BadVideoLink)
  {
    ContainsIsSubstring(l.videoLink, VideoHostPath);
    if l.videoLink != "" && !Contains(l.videoLink, VideoHostPath) then Some(BadVideoLink)
    else if !isNew then None
    else if FindCourse(db.courses, l.course).None? then Some(NoSuchCourse)
    else if LessonCount(db.lessons, l.course) >= MaxLessonsPerCourse then Some(TooManyLessons)
    else None
  }

  /** `Lesson.save` of a new lesson: it reads the course's lesson count but
      refuses nothing on it, so the row is appended whatever the count. The
      read itself raises when the course key has no row, and then nothing is
      written. */
  function SaveNewLesson(db: Db, l: Lesson): (r: Result<Db, LessonRefusal>)
    ensures r.Err? <==> l.course !in CourseIds(db.courses)
    ensures r.Err? ==> r.error == CourseLookupFailed
    ensures r.Ok? ==> r.value.courses == db.courses && r.value.enrollments == db.enrollments
    ensures r.Ok? ==> |r.value.lessons| == |db.lessons| + 1 && r.value.lessons[|db.lessons|] == l
    ensures r.Ok? ==> r.value.lessons[..|db.lessons|] == db.lessons
  {
    if FindCourse(db.courses, l.course).None? then Err(CourseLookupFailed)
    else Ok(db.(lessons := db.lessons + [l]))
  }

  /** Why creating a lesson fails. `Invalid` is the `ValidationError` of
      `full_clean`, collecting the failing fields, the unresolved course key
      and the `clean` error; `CourseLookupFailed` is the lookup exception that
      `clean` lets escape when the course key has no row. */
  datatype LessonRefusal =
    | Invalid(fields: set<LessonField>, courseMissing: bool, clean: Option<CleanError>)
    | CourseLookupFailed

  /** Creating a lesson the way the admin form does: `full_clean` (field
      checks, the course foreign key, then `clean`), then `save`. `l.id` is
      the key the database assigns to the new row. */
  function CreateLesson(db: Db, l: Lesson): (r: Result<Db, LessonRefusal>)
    ensures r.Ok? <==>
      LessonFieldErrors(l) == {} && l.course in CourseIds(db.courses) && CleanLesson(db, l, true).None?
    ensures r.Ok? ==> r == SaveNewLesson(db, l)
    ensures r == Err(CourseLookupFailed) <==> LinkAccepted(l) && l.course !in CourseIds(db.courses)
    ensures r.Err? && r.error.Invalid? ==>
      && r.error.fields == LessonFieldErrors(l)
      && (r.error.courseMissing <==> l.course !in CourseIds(db.courses))
      && r.error.clean == CleanLesson(db, l, true)
  {
    var fields := LessonFieldErrors(l);
    var missing := l.course !in CourseIds(db.courses);
    var clean := CleanLesson(db, l, true);
    if clean == Some(NoSuchCourse) then Err(CourseLookupFailed)
    else if fields == {} && !missing && clean.None? then SaveNewLesson(db, l)
    else Err(Invalid(fields, missing, clean))
  }

  /** No stored lesson has the key `id`. */
  predicate FreshLessonId(lessons: seq<Lesson>, id: nat) {
    forall m | m in lessons :: m.id != id
  }

  /** A lesson created under a fresh key keeps the database well formed: its
      course exists, so the lesson foreign key still resolves everywhere. */
  lemma CreateLessonKeepsWellFormed(db: Db, l: Lesson)
    requires WellFormed(db) && FreshLessonId(db.lessons, l.id)
    requires CreateLesson(db, l).Ok?
    ensures WellFormed(CreateLesson(db, l).value)
  {
    AddLessonKeepsWellFormed(db, l);
  }

  /** Appending a lesson with a fresh key to an existing course keeps the
      database well formed. */
  lemma AddLessonKeepsWellFormed(db: Db, l: Lesson)
    requires WellFormed(db) && FreshLessonId(db.lessons, l.id)
    requires l.course in CourseIds(db.courses)
    ensures WellFormed(db.(lessons := db.lessons + [l]))
  {
    var after := db.lessons + [l];
    assert forall i :: 0 <= i < |db.lessons| ==> after[i] == db.lessons[i] && after[i] in db.lessons;
  }

  /** No course owns more than five lessons. */
  ghost predicate AtMostFiveLessons(lessons: seq<Lesson>) {
    forall c: CourseId :: LessonCount(lessons, c) <= MaxLessonsPerCourse
  }

  lemma CountAppend(lessons: seq<Lesson>, l: Lesson, c: CourseId)
    ensures LessonCount(lessons + [l], c) == LessonCount(lessons, c) + (if l.course == c then 1 else 0)
  {
  }

  /** Clean-then-save keeps every course at five lessons or fewer. */
  lemma {:induction false} CreateLessonKeepsCap(db: Db, l: Lesson)
    requires AtMostFiveLessons(db.lessons)
    requires CreateLesson(db, l).Ok?
    ensures AtMostFiveLessons(CreateLesson(db, l).value.lessons)
  {
    var after := CreateLesson(db, l).value.lessons;
    assert after == db.lessons + [l];
    assert LessonCount(db.lessons, l.course) < MaxLessonsPerCourse;
    forall c: CourseId
      ensures LessonCount(after, c) <= MaxLessonsPerCourse
    {
      CountAppend(db.lessons, l, c);
    }
  }

  /** `save` alone does not enforce the cap: a sixth lesson goes through. */
  lemma SaveAloneExceedsCap(db: Db, l: Lesson)
    requires l.course in CourseIds(db.courses)
    requires LessonCount(db.lessons, l.course) == MaxLessonsPerCourse
    ensures SaveNewLesson(db, l).Ok?
    ensures LessonCount(SaveNewLesson(db, l).value.lessons, l.course) == MaxLessonsPerCourse + 1
    ensures !AtMostFiveLessons(SaveNewLesson(db, l).value.lessons)
  {
  }

  /** A blank link is never the reason a lesson is refused. */
  lemma BlankLinkAccepted(db: Db, l: Lesson, isNew: bool)
    requires l.videoLink == ""
    ensures CleanLesson(db, l, isNew) != Some(BadVideoLink)
  {
  }

  // ---------------------------------------------------------------------------
  // Deletion guards
  // ---------------------------------------------------------------------------

  /** `course.enrollments.exists()`, whatever the enrollments' statuses. */
  function HasEnrollments(ledger: seq<Enrollment>, course: CourseId): (b: bool)
    ensures b <==> exists i :: 0 <= i < |ledger| && ledger[i].course == course
  {
    !Find(ledger, (e: Enrollment) => e.course == course).NoMatch?
  }

  datatype Deletion = Deleted(db: Db) | Protected

  /** Filters of the deletions below, named once so the rows they keep can
      be spoken of by the lemmas that follow. */
  function OtherCourse(id: CourseId): Course -> bool {
    (c: Course) => c.id != id
  }

  function OutsideCourse(id: CourseId): Lesson -> bool {
    (l: Lesson) => l.course != id
  }

  function OtherLesson(id: nat): Lesson -> bool {
    (m: Lesson) => m.id != id
  }

  /** `Course.delete`: refused while any enrollment references the course;
      otherwise the course goes and its lessons cascade. No enrollment
      references it then, so the ledger is left as it was. Every other row
      stays, once per position it held, in increasing position. */
  function DeleteCourse(db: Db, id: CourseId): (r: Deletion)
    ensures r.Protected? <==> exists i :: 0 <= i < |db.enrollments| && db.enrollments[i].course == id
    ensures r.Deleted? ==> r.db.enrollments == db.enrollments
    ensures r.Deleted? ==> forall c :: c in r.db.courses <==> c in db.courses && c.id != id
    ensures r.Deleted? ==> forall l :: l in r.db.lessons <==> l in db.lessons && l.course != id
    ensures r.Deleted? ==> r.db.courses == Select(db.courses, FindAll(db.courses, OtherCourse(id)))
    ensures r.Deleted? ==> r.db.lessons == Select(db.lessons, FindAll(db.lessons, OutsideCourse(id)))
  {
    if HasEnrollments(db.enrollments, id) then Protected
    else
      KeepIsSelection(db.courses, OtherCourse(id));
      KeepIsSelection(db.lessons, OutsideCourse(id));
      Deleted(Db(Keep(db.courses, OtherCourse(id)), Keep(db.lessons, OutsideCourse(id)), db.enrollments))
  }

  /** `Lesson.delete`: refused while the lesson's course has any enrollment;
      otherwise exactly the rows with the lesson's key go, and every other
      row stays once per position it held, in increasing position. */
  function DeleteLesson(db: Db, l: Lesson): (r: Deletion)
    ensures r.Protected? <==> exists i :: 0 <= i < |db.enrollments| && db.enrollments[i].course == l.course
    ensures r.Deleted? ==> r.db.courses == db.courses && r.db.enrollments == db.enrollments
    ensures r.Deleted? ==> forall m :: m in r.db.lessons <==> m in db.lessons && m.id != l.id
    ensures r.Deleted? ==> r.db.lessons == Select(db.lessons, FindAll(db.lessons, OtherLesson(l.id)))
  {
    if HasEnrollments(db.enrollments, l.course) then Protected
    else
      KeepIsSelection(db.lessons, OtherLesson(l.id));
      Deleted(db.(lessons := Keep(db.lessons, OtherLesson(l.id))))
  }

  /** A course deletion that goes through leaves a well-formed database: the
      remaining keys stay distinct, and no enrollment or remaining lesson
      points at the course that went. */
  lemma DeleteCourseKeepsWellFormed(db: Db, id: CourseId)
    requires WellFormed(db)
    ensures DeleteCourse(db, id).Deleted? ==> WellFormed(DeleteCourse(db, id).db)
  {
    var r := DeleteCourse(db, id);
    if r.Deleted? {
      SelectKeepsKeysDistinct(db.courses, FindAll(db.courses, OtherCourse(id)), (c: Course) => c.id);
      SelectKeepsKeysDistinct(db.lessons, FindAll(db.lessons, OutsideCourse(id)), (l: Lesson) => l.id);
      forall e | e in r.db.enrollments ensures e.course in CourseIds(r.db.courses) {
        var i :| 0 <= i < |db.enrollments| && db.enrollments[i] == e;
        assert e.course != id;
        var c :| c in db.courses && c.id == e.course;
        assert c in r.db.courses;
      }
      forall l | l in r.db.lessons ensures l.course in CourseIds(r.db.courses) {
        var c :| c in db.courses && c.id == l.course;
        assert c in r.db.courses;
      }
    }
  }

  /** A lesson deletion that goes through leaves a well-formed database. */
  lemma DeleteLessonKeepsWellFormed(db: Db, l: Lesson)
    requires WellFormed(db)
    ensures DeleteLesson(db, l).Deleted? ==> WellFormed(DeleteLesson(db, l).db)
  {
    var r := DeleteLesson(db, l);
    if r.Deleted? {
      SelectKeepsKeysDistinct(db.lessons, FindAll(db.lessons, OtherLesson(l.id)), (m: Lesson) => m.id);
    }
  }

  // ---------------------------------------------------------------------------
  // course_image_path
  // ---------------------------------------------------------------------------

  /** `filename.split('.')[-1]`: the text after the last dot, or the whole
      name when it has none. */
  function Extension(filename: string): (ext: string)
    ensures '.' !in ext && EndsWith(filename, ext)
    ensures ext == filename || (|ext| < |filename| && filename[|filename| - |ext| - 1] == '.')
  {
    LastPart(filename, '.')
  }

  const ImageDir := "courses/"
  const ImagePrefix := "mpic_"

  /** `course_image_path`: the stored cover is renamed to `mpic_` followed by
      the first 8 characters of a random hex token, keeping the extension,
      under `courses/`. */
  function ImagePath(filename: string, token: string): (path: string)
    requires |token| >= 8
    ensures StartsWith(path, ImageDir + ImagePrefix)
    ensures |path| == 22 + |LastPart(filename, '.')|
    ensures path[13..21] == token[..8] && path[21] == '.'
    ensures path[22..] == LastPart(filename, '.')
  {
    ImageDir + ImagePrefix + token[..8] + "." + Extension(filename)
  }

  lemma ExtensionHasNoSlash(filename: string)
    requires '/' !in filename
    ensures '/' !in Extension(filename)
  {
    var ext := Extension(filename);
    forall k | 0 <= k < |ext| ensures ext[k] != '/' {
      assert ext[k] == filename[|filename| - |ext| + k];
    }
  }

  lemma StemHasNoSlash(token: string)
    requires |token| >= 8 && '/' !in token[..8]
    ensures '/' !in ImagePrefix + token[..8]
  {
    var stem := ImagePrefix + token[..8];
    forall k | 0 <= k < |stem| ensures stem[k] != '/' {
      if k >= 5 {
        assert stem[k] == token[..8][k - 5];
      }
    }
  }

  /** The stored name's suffix is the uploaded name's extension. */
  lemma StoredSuffix(filename: string, token: string)
    requires |token| >= 8 && '/' !in token[..8]
    requires '/' !in filename && Extension(filename) != ""
    ensures Suffix(ImagePath(filename, token)) == Extension(filename)
  {
    var ext := Extension(filename);
    var stem := ImagePrefix + token[..8];
    var base := stem + ['.'] + ext;
    assert ImagePath(filename, token) == "courses" + ['/'] + base by {
      assert ImageDir == "courses" + ['/'];
    }
    assert Suffix(base) == ext by {
      ExtensionHasNoSlash(filename);
      StemHasNoSlash(token);
      SuffixOfStem(stem, ext);
    }
    assert '/' !in base by {
      ExtensionHasNoSlash(filename);
      StemHasNoSlash(token);
      NoSlashAroundDot(stem, ext);
    }
    SuffixOfFinal("courses", base);
  }

  /** An uploaded cover the validator accepts is accepted again under the name
      it is stored with, so a later `full_clean` of the saved course does not
      reject it. Upload names carry no directory, and the token is hex. */
  lemma StoredCoverAccepted(filename: string, token: string)
    requires |token| >= 8 && '.' !in token[..8] && '/' !in token[..8]
    requires '/' !in filename && CoverExtensionOk(filename)
    ensures CoverExtensionOk(ImagePath(filename, token))
  {
    assert Suffix(filename) == Extension(filename) by {
      assert LastPart(filename, '/') == filename;
    }
    StoredSuffix(filename, token);
  }

  /** The renamed file keeps the uploaded file's format, whatever the token. */
  lemma ImagePathKeepsExtension(filename: string, token: string)
    requires |token| >= 8
    ensures Extension(ImagePath(filename, token)) == Extension(filename)
  {
    var ext := Extension(filename);
    var head := ImageDir + ImagePrefix + token[..8];
    assert ImagePath(filename, token) == head + ['.'] + ext;
    LastPartAfterSeparator(head, '.', ext);
  }
}

=== FILE: serializers.dfy ===
/** The representation rules of api/serializers.py: the registration password
    policy, the `DD-MM-YYYY` rendering of course dates, and the shapes of the
    course, lesson and enrollment outputs.
 */
module Serializers {
  import opened Common
  import opened Students
  import opened Courses

  // ---------------------------------------------------------------------------
  // Password policy
  // ---------------------------------------------------------------------------

  /** The character classes the policy searches for. */
  datatype CharClass = Lowercase | Uppercase | Digit | Special

  predicate InClass(c: char, k: CharClass) {
    match k
    case Lowercase => 'a' <= c <= 'z'
    case Uppercase => 'A' <= c <= 'Z'
    case Digit => '0' <= c <= '9'
    case Special => c == '_' || c == '#' || c == '!' || c == '%'
  }

  /** Some character of `s` lies in class `k`. */
  ghost predicate HasCharIn(s: string, k: CharClass) {
    exists i :: 0 <= i < |s| && InClass(s[i], k)
  }

  /** `re.search` with a one-class pattern, scanning from the left. */
  function Search(s: string, k: CharClass): (found: bool)
    ensures found <==> HasCharIn(s, k)
    decreases |s|
  {
    if |s| == 0 then false
    else if InClass(s[0], k) then true
    else
      var rest := Search(s[1..], k);
      assert forall i :: 1 <= i < |s| ==> s[i] == s[1..][i - 1];
      rest
  }

  const PasswordMinLength := 3

  /** The failing checks, in the order they are tried. */
  datatype PasswordError = TooShort | NoLowercase | NoUppercase | NoDigit | NoSpecial

  /** `validate_password`: the value comes back unchanged when it passes, and
      otherwise the error is the first check that fails. */
  function ValidatePassword(v: string): (r: Result<string, PasswordError>)
    ensures r.Ok? <==>
      && |v| >= PasswordMinLength
      && HasCharIn(v, Lowercase) && HasCharIn(v, Uppercase)
      && HasCharIn(v, Digit) && HasCharIn(v, Special)
    ensures r.Ok? ==> r.value == v
    ensures r == Err(TooShort) <==> |v| < PasswordMinLength
    ensures r == Err(NoLowercase) <==> |v| >= PasswordMinLength && !HasCharIn(v, Lowercase)
    ensures r == Err(NoUppercase) <==>
      |v| >= PasswordMinLength && HasCharIn(v, Lowercase) && !HasCharIn(v, Uppercase)
    ensures r == Err(NoDigit) <==>
      |v| >= PasswordMinLength && HasCharIn(v, Lowercase) && HasCharIn(v, Uppercase)
      && !HasCharIn(v, Digit)
    ensures r == Err(NoSpecial) <==>
      |v| >= PasswordMinLength && HasCharIn(v, Lowercase) && HasCharIn(v, Uppercase)
      && HasCharIn(v, Digit) && !HasCharIn(v, Special)
  {
    if |v| < PasswordMinLength then Err(TooShort)
    else if !Search(v, Lowercase) then Err(NoLowercase)
    else if !Search(v, Uppercase) then Err(NoUppercase)
    else if !Search(v, Digit) then Err(NoDigit)
    else if !Search(v, Special) then Err(NoSpecial)
    else Ok(v)
  }

  /** Two sample passwords of the expected shape pass the policy. */
  lemma SamplePasswordsAccepted()
    ensures ValidatePassword("Password1!").Ok?
    ensures ValidatePassword("Password1!#").Ok?
  {
    var p, q := "Password1!", "Password1!#";
    assert InClass(p[1], Lowercase) && InClass(p[0], Uppercase) && InClass(p[8], Digit) && InClass(p[9], Special);
    assert InClass(q[1], Lowercase) && InClass(q[0], Uppercase) && InClass(q[8], Digit) && InClass(q[9], Special);
  }

  // ---------------------------------------------------------------------------
  // Dates as DD-MM-YYYY
  // ---------------------------------------------------------------------------

  /** Two decimal digits read as a number. */
  function Digits2(a: char, b: char): (n: int)
    requires IsDigit(a) && IsDigit(b)
    ensures 0 <= n <= 99
  {
    DigitValue(a) * 10 + DigitValue(b)
  }

  /** A number below 100 as two zero-padded digits. */
  function Pad2(n: int): (s: string)
    requires 0 <= n <= 99
    ensures |s| == 2 && IsDigit(s[0]) && IsDigit(s[1])
    ensures Digits2(s[0], s[1]) == n
  {
    DigitCharValue(n / 10);
    DigitCharValue(n % 10);
    [DigitChar(n / 10), DigitChar(n % 10)]
  }

  /** A number below 10000 as four zero-padded digits. */
  function Pad4(n: int): (s: string)
    requires 0 <= n <= 9999
    ensures |s| == 4 && forall k :: 0 <= k < 4 ==> IsDigit(s[k])
    ensures Digits2(s[0], s[1]) * 100 + Digits2(s[2], s[3]) == n
  {
    var hi := Pad2(n / 100);
    var lo := Pad2(n % 100);
    assert (hi + lo)[0] == hi[0] && (hi + lo)[1] == hi[1];
    assert (hi + lo)[2] == lo[0] && (hi + lo)[3] == lo[1];
    hi + lo
  }

  /** `strftime("%d-%m-%Y")`. */
  function FormatDate(d: Date): (s: string)
    requires ValidDate(d)
    ensures |s| == 10 && s[2] == '-' && s[5] == '-'
    ensures forall k :: 0 <= k < 10 && k != 2 && k != 5 ==> IsDigit(s[k])
  {
    Pad2(d.day) + "-" + Pad2(d.month) + "-" + Pad4(d.year)
  }

  /** Reads `DD-MM-YYYY` back; anything else, or an impossible date, is `None`. */
  function ParseDate(s: string): (r: Option<Date>)
    ensures r.Some? ==> ValidDate(r.value)
  {
    if |s| == 10 && s[2] == '-' && s[5] == '-'
       && forall k :: 0 <= k < 10 && k != 2 && k != 5 ==> IsDigit(s[k])
    then
      var d := Date(Digits2(s[6], s[7]) * 100 + Digits2(s[8], s[9]),
                    Digits2(s[3], s[4]), Digits2(s[0], s[1]));
      if ValidDate(d) then Some(d) else None
    else None
  }

  /** Rendering loses nothing: the rendered text reads back as the same date. */
  lemma FormatDateRoundTrip(d: Date)
    requires ValidDate(d)
    ensures ParseDate(FormatDate(d)) == Some(d)
  {
  }

  lemma Pad2Digits(a: char, b: char)
    requires IsDigit(a) && IsDigit(b)
    ensures Pad2(Digits2(a, b)) == [a, b]
  {
  }

  lemma Pad4Digits(a: char, b: char, c: char, d: char)
    requires IsDigit(a) && IsDigit(b) && IsDigit(c) && IsDigit(d)
    ensures Pad4(Digits2(a, b) * 100 + Digits2(c, d)) == [a, b, c, d]
  {
    var hi, lo := Digits2(a, b), Digits2(c, d);
    assert (hi * 100 + lo) / 100 == hi && (hi * 100 + lo) % 100 == lo;
    Pad2Digits(a, b);
    Pad2Digits(c, d);
  }

  /** Every text that reads as a date is exactly that date's rendering. */
  lemma ParseDateIsFormatted(s: string)
    requires ParseDate(s).Some?
    ensures FormatDate(ParseDate(s).value) == s
  {
    var d := ParseDate(s).value;
    Pad2Digits(s[0], s[1]);
    Pad2Digits(s[3], s[4]);
    Pad4Digits(s[6], s[7], s[8], s[9]);
    assert s == [s[0], s[1]] + "-" + [s[3], s[4]] + "-" + [s[6], s[7], s[8], s[9]];
  }

  // ---------------------------------------------------------------------------
  // Output shapes
  // ---------------------------------------------------------------------------

  /** Python's `str` of a natural number: decimal digits, no leading zero. */
  function DecimalText(n: nat): (s: string)
    ensures 1 <= |s| && forall k :: 0 <= k < |s| ==> IsDigit(s[k])
    ensures 1 < |s| ==> s[0] != '0'
    ensures DecimalValue(s) == n
    decreases n
  {
    DigitCharValue(n % 10);
    if n < 10 then [DigitChar(n)]
    else
      var front := DecimalText(n / 10);
      assert (front + [DigitChar(n % 10)])[..|front|] == front;
      front + [DigitChar(n % 10)]
  }

  /** A string of decimal digits read as a number. */
  function DecimalValue(s: string): (n: nat)
    requires forall k :: 0 <= k < |s| ==> IsDigit(s[k])
    decreases |s|
  {
    if |s| == 0 then 0 else DecimalValue(s[..|s| - 1]) * 10 + DigitValue(s[|s| - 1])
  }

  /** The price as the `DecimalField` with two decimal places renders it:
      a minus sign for negative amounts, the whole units, a point and the
      two-digit cents. */
  function PriceText(cents: int): (s: string)
    ensures ParsePrice(s) == Some(cents)
    ensures |s| >= 4 && s[|s| - 3] == '.'
    ensures cents >= 0 <==> s[0] != '-'
    ensures var units := if cents < 0 then s[1..|s| - 3] else s[..|s| - 3];
            1 < |units| ==> units[0] != '0'
  {
    var m := if cents < 0 then -cents else cents;
    var whole := DecimalText(m / 100);
    var frac := Pad2(m % 100);
    var unsigned := whole + "." + frac;
    var t := if cents < 0 then "-" + unsigned else unsigned;
    assert t[|t| - 3] == '.' && t[|t| - 2] == frac[0] && t[|t| - 1] == frac[1];
    assert t[..|t| - 3] == (if cents < 0 then "-" + whole else whole);
    assert cents < 0 ==> t[1..|t| - 3] == whole;
    t
  }

  /** Reads the price text back: an optional minus sign, at least one digit,
      a point and exactly two digits. */
  function ParsePrice(s: string): (r: Option<int>)
  {
    if |s| >= 4 && s[|s| - 3] == '.' && IsDigit(s[|s| - 2]) && IsDigit(s[|s| - 1]) then
      var neg := s[0] == '-';
      var whole := if neg then s[1..|s| - 3] else s[..|s| - 3];
      if 1 <= |whole| && forall k :: 0 <= k < |whole| ==> IsDigit(whole[k]) then
        var m := DecimalValue(whole) * 100 + Digits2(s[|s| - 2], s[|s| - 1]);
        Some(if neg then -m else m)
      else None
    else None
  }

  /** The course fields sent to clients. `img` is the absolute address of the
      stored cover under `mediaRoot` (the site's media address), or `null` when
      the course has none. */
  datatype CourseView = CourseView(
    id: CourseId, name: string, description: string, hours: int,
    img: Option<string>, startDate: string, endDate: string, price: string)

  function SerializeCourse(c: Course, mediaRoot: string): (v: CourseView)
    requires ValidDate(c.startDate) && ValidDate(c.endDate)
    ensures v.id == c.id && v.name == c.name && v.description == c.description
    ensures v.hours == c.hours
    ensures v.img.None? <==> c.img == ""
    ensures v.img.Some? ==> StartsWith(v.img.value, mediaRoot) && v.img.value[|mediaRoot|..] == c.img
    ensures ParseDate(v.startDate) == Some(c.startDate)
    ensures ParseDate(v.endDate) == Some(c.endDate)
    ensures ParsePrice(v.price) == Some(c.priceCents)
  {
    FormatDateRoundTrip(c.startDate);
    FormatDateRoundTrip(c.endDate);
    var img := if c.img == "" then None else Some(mediaRoot + c.img);
    CourseView(c.id, c.name, c.description, c.hours, img,
               FormatDate(c.startDate), FormatDate(c.endDate), PriceText(c.priceCents))
  }

  /** The lesson fields sent to clients: `text_content` goes out as `description`. */
  datatype LessonView = LessonView(id: nat, name: string, description: string, videoLink: string, hours: int)

  function SerializeLesson(l: Lesson): (v: LessonView)
    ensures v.description == l.textContent
    ensures v.id == l.id && v.name == l.name && v.videoLink == l.videoLink && v.hours == l.hours
  {
    LessonView(l.id, l.name, l.textContent, l.videoLink, l.hours)
  }

  /** One entry of the order list. */
  datatype OrderView = OrderView(id: nat, paymentStatus: string, course: CourseView)

  /** `EnrollmentSerializer.to_representation`: `payment_status` carries the raw
      status key, overriding the display label the field was declared with. */
  function SerializeEnrollment(e: Enrollment, c: Course, mediaRoot: string): (v: OrderView)
    requires ValidDate(c.startDate) && ValidDate(c.endDate)
    ensures v.id == e.id && v.course == SerializeCourse(c, mediaRoot)
    ensures ParseKey(v.paymentStatus) == Some(e.status)
    ensures forall s :: v.paymentStatus != Label(s)
  {
    KeyRoundTrip(e.status);
    OrderView(e.id, Key(e.status), SerializeCourse(c, mediaRoot))
  }
}

=== FILE: students.dfy ===
/** The enrollment ledger (students/models.py): the record that links a user
    to a course, its payment status, and the integrity conditions the rest of
    the system relies on.
 */
module Students {
  import opened Common

  /** The closed set of payment statuses stored in the `status` column. */
  datatype Status = Pending | Success | Failed

  /** The raw key stored in the database and sent on the wire. */
  function Key(s: Status): string {
    match s
    case Pending => "pending"
    case Success => "success"
    case Failed => "failed"
  }

  /** The human-readable label shown by the admin (`get_status_display`). */
  function Label(s: Status): string {
    match s
    case Pending => "Ожидает оплаты"
    case Success => "Оплачено"
    case Failed => "Ошибка оплаты"
  }

  /** Reads a stored key back; anything outside the three choices is not a status. */
  function ParseKey(k: string): (r: Option<Status>)
    ensures r.Some? ==> Key(r.value) == k
    ensures r.None? ==> k != "pending" && k != "success" && k != "failed"
  {
    if k == "pending" then Some(Pending)
    else if k == "success" then Some(Success)
    else if k == "failed" then Some(Failed)
    else None
  }

  /** Every status is stored under its own key and read back unchanged. */
  lemma KeyRoundTrip(s: Status)
    ensures ParseKey(Key(s)) == Some(s)
    ensures |Key(s)| <= StatusMaxLength
  {
  }

  /** Keys and labels are each one-to-one, and no key doubles as a label. */
  lemma KeysAndLabelsDistinct(s: Status, t: Status)
    ensures Key(s) == Key(t) <==> s == t
    ensures Label(s) == Label(t) <==> s == t
    ensures Key(s) != Label(t)
  {
  }

  const StatusMaxLength := 10
  const CertificateMaxLength := 12

  /** One row of the ledger. `orderId` and `certificate` are nullable columns. */
  datatype Enrollment = Enrollment(
    id: nat,
    user: UserId,
    course: CourseId,
    date: int,
    status: Status,
    orderId: Option<string>,
    certificate: Option<string>)

  /** A row as the ORM creates it when only the foreign keys are given: the
      status column defaults to `pending`, both nullable columns are NULL. */
  function NewEnrollment(id: nat, user: UserId, course: CourseId, date: int): (e: Enrollment)
    ensures e.status == Pending
    ensures e.orderId.None? && e.certificate.None?
    ensures e.id == id && e.user == user && e.course == course && e.date == date
  {
    Enrollment(id, user, course, date, Pending, None, None)
  }

  /** Python truthiness of the certificate column: NULL and "" both mean "none yet". */
  predicate HasCertificate(e: Enrollment) {
    e.certificate.Some? && e.certificate.value != ""
  }

  /** The certificate column holds at most 12 characters. */
  predicate CertificateFits(e: Enrollment) {
    e.certificate.Some? ==> |e.certificate.value| <= CertificateMaxLength
  }

  // ---------------------------------------------------------------------------
  // Ledger integrity
  // ---------------------------------------------------------------------------

  /** Primary keys are unique. */
  predicate DistinctIds(ledger: seq<Enrollment>) {
    forall i, j :: 0 <= i < j < |ledger| ==> ledger[i].id != ledger[j].id
  }

  /** At most one enrollment per (user, course) pair. The schema does not
      enforce this; the purchase path keeps it. */
  predicate OnePerPair(ledger: seq<Enrollment>) {
    forall i, j :: 0 <= i < j < |ledger| ==>
      ledger[i].user != ledger[j].user || ledger[i].course != ledger[j].course
  }

  /** Non-null order identifiers are unique (they are fresh random hex strings). */
  predicate DistinctOrderIds(ledger: seq<Enrollment>) {
    forall i, j :: 0 <= i < j < |ledger| && ledger[i].orderId.Some? ==>
      ledger[i].orderId != ledger[j].orderId
  }

  predicate LedgerWellFormed(ledger: seq<Enrollment>) {
    DistinctIds(ledger) && OnePerPair(ledger) && DistinctOrderIds(ledger)
  }

  /** `order` is not yet used by any row. */
  predicate FreshOrderId(ledger: seq<Enrollment>, order: string) {
    forall i :: 0 <= i < |ledger| ==> ledger[i].orderId != Some(order)
  }

  predicate FreshId(ledger: seq<Enrollment>, id: nat) {
    forall i :: 0 <= i < |ledger| ==> ledger[i].id != id
  }

  /** Appending a row with a fresh key, a fresh order and a pair not yet in the
      ledger keeps every integrity condition. */
  lemma AppendKeepsWellFormed(ledger: seq<Enrollment>, e: Enrollment)
    requires LedgerWellFormed(ledger) && FreshId(ledger, e.id)
    requires e.orderId.Some? && FreshOrderId(ledger, e.orderId.value)
    requires forall i :: 0 <= i < |ledger| ==> ledger[i].user != e.user || ledger[i].course != e.course
    ensures LedgerWellFormed(ledger + [e])
  {
    var after := ledger + [e];
    assert forall i :: 0 <= i < |ledger| ==> after[i] == ledger[i];
  }
}

=== FILE: views.dfy ===
/** The request handlers of api/views.py, each a pure function from the
    database and the request to the response and the database afterwards:
    purchase, the payment webhook, cancellation, the public certificate check,
    the order list and the course detail. The current date, fresh order
    identifiers, new primary keys and creation timestamps are parameters.
 */
module Views {
  import opened Common
  import opened Students
  import opened Courses
  import opened Serializers
  import Admin

  // ---------------------------------------------------------------------------
  // Purchase (CourseViewSet.buy)
  // ---------------------------------------------------------------------------

  datatype BuyResponse =
    | CourseNotFound          // 404 from get_object
    | CourseUnavailable       // 400 "Course unavailable"
    | AlreadyEnrolled         // 400 "Already enrolled"
    | PayUrl(url: string)     // 200 {"pay_url": ...}
    | DuplicateEnrollments    // 500: get_or_create met several rows for the pair

  function BuyStatusCode(r: BuyResponse): int {
    match r
    case CourseNotFound => 404
    case CourseUnavailable => 400
    case AlreadyEnrolled => 400
    case PayUrl(_) => 200
    case DuplicateEnrollments => 500
  }

  const PayUrlPrefix := "https://payment.provider/pay?order_id="

  /** The payment-provider link for an order. */
  function PaymentUrl(order: string): (url: string)
    ensures StartsWith(url, "https://payment.provider/pay?")
    ensures EndsWith(url, "order_id=" + order)
  {
    assert PayUrlPrefix + order == "https://payment.provider/pay?" + ("order_id=" + order);
    PayUrlPrefix + order
  }

  /** A client recovers the order from the link by taking the text after its
      last '='; this gives back the order as long as it holds no '=' (a hex
      identifier never does). */
  lemma OrderIdFromPaymentUrl(order: string)
    requires '=' !in order
    ensures LastPart(PaymentUrl(order), '=') == order
  {
    var head := "https://payment.provider/pay?order_id";
    assert PaymentUrl(order) == head + ['='] + order;
    LastPartAfterSeparator(head, '=', order);
  }

  /** `today >= start_date or today > end_date`. */
  predicate Unavailable(today: Date, c: Course) {
    !Before(today, c.startDate) || Before(c.endDate, today)
  }

  /** The course exists and may be bought today. */
  predicate Available(db: Db, course: CourseId, today: Date) {
    FindCourse(db.courses, course).Some? && !Unavailable(today, FindCourse(db.courses, course).value)
  }

  predicate IsPair(e: Enrollment, user: UserId, course: CourseId) {
    e.user == user && e.course == course
  }

  /** Row `i` is the only enrollment of `user` in `course`. */
  predicate PairAt(ledger: seq<Enrollment>, user: UserId, course: CourseId, i: int) {
    && 0 <= i < |ledger| && IsPair(ledger[i], user, course)
    && forall j :: 0 <= j < |ledger| && IsPair(ledger[j], user, course) ==> j == i
  }

  /** `buy`: refuse an unavailable course; otherwise get-or-create the
      (user, course) enrollment with a fresh order. A paid enrollment is
      refused; a pending or failed one only gets the new order identifier,
      its status is left as it was. */
  function Buy(db: Db, user: UserId, course: CourseId, today: Date, order: string, newId: nat, now: int)
    : (r: (BuyResponse, Db))
    ensures r.1.courses == db.courses && r.1.lessons == db.lessons
    ensures !r.0.PayUrl? ==> r.1 == db
    ensures r.0 == CourseNotFound <==> FindCourse(db.courses, course).None?
    ensures r.0 == CourseUnavailable <==>
      FindCourse(db.courses, course).Some? && Unavailable(today, FindCourse(db.courses, course).value)
    ensures r.0.PayUrl? ==> r.0.url == PaymentUrl(order)
    ensures Available(db, course, today) && (forall i :: 0 <= i < |db.enrollments| ==> !IsPair(db.enrollments[i], user, course)) ==>
      && r.0 == PayUrl(PaymentUrl(order))
      && r.1.enrollments == db.enrollments + [Enrollment(newId, user, course, now, Pending, Some(order), None)]
    ensures forall i | 0 <= i < |db.enrollments| && Available(db, course, today) && PairAt(db.enrollments, user, course, i) ::
      && (db.enrollments[i].status == Success <==> r.0 == AlreadyEnrolled)
      && (db.enrollments[i].status != Success ==>
            r.0.PayUrl? && r.1.enrollments == db.enrollments[i := db.enrollments[i].(orderId := Some(order))])
    ensures r.0 == DuplicateEnrollments <==>
      && Available(db, course, today)
      && exists i, j :: 0 <= i < j < |db.enrollments|
           && IsPair(db.enrollments[i], user, course) && IsPair(db.enrollments[j], user, course)
  {
    match FindCourse(db.courses, course)
    case None => (CourseNotFound, db)
    case Some(c) =>
      if Unavailable(today, c) then (CourseUnavailable, db)
      else
        var ledger := db.enrollments;
        match Find(ledger, (e: Enrollment) => IsPair(e, user, course))
        case Several => (DuplicateEnrollments, db)
        case NoMatch =>
          var created := NewEnrollment(newId, user, course, now).(orderId := Some(order));
          (PayUrl(PaymentUrl(order)), db.(enrollments := ledger + [created]))
        case Unique(i) =>
          if ledger[i].status == Success then (AlreadyEnrolled, db)
          else (PayUrl(PaymentUrl(order)), db.(enrollments := ledger[i := ledger[i].(orderId := Some(order))]))
  }

  /** The boundary is asymmetric: buying on the start day is refused, while on
      the end day only the start date can refuse. */
  lemma BuyDateBoundary(c: Course, today: Date)
    ensures today == c.startDate ==> Unavailable(today, c)
    ensures today == c.endDate ==> (Unavailable(today, c) <==> !Before(today, c.startDate))
  {
  }

  /** With a fresh order identifier and a fresh key, a purchase keeps the
      database well formed; in particular at most one enrollment per
      (user, course) pair survives any purchase. */
  lemma {:induction false} BuyKeepsWellFormed(db: Db, user: UserId, course: CourseId, today: Date, order: string, newId: nat, now: int)
    requires WellFormed(db)
    requires FreshOrderId(db.enrollments, order) && FreshId(db.enrollments, newId)
    ensures WellFormed(Buy(db, user, course, today, order, newId, now).1)
    ensures Buy(db, user, course, today, order, newId, now).0 != DuplicateEnrollments
  {
    var r := Buy(db, user, course, today, order, newId, now);
    var ledger := db.enrollments;
    assert OnePerPair(ledger);
    assert forall i, j :: 0 <= i < j < |ledger| ==>
      !(IsPair(ledger[i], user, course) && IsPair(ledger[j], user, course));
    if r.0.PayUrl? {
      assert Available(db, course, today);
      if forall i :: 0 <= i < |ledger| ==> !IsPair(ledger[i], user, course) {
        var created := Enrollment(newId, user, course, now, Pending, Some(order), None);
        EnrollKeepsWellFormed(db, created);
        assert r.1 == db.(enrollments := ledger + [created]);
      } else {
        var i :| 0 <= i < |ledger| && IsPair(ledger[i], user, course);
        assert PairAt(ledger, user, course, i);
        ReorderKeepsWellFormed(db, i, order);
        assert r.1 == db.(enrollments := ledger[i := ledger[i].(orderId := Some(order))]);
      }
    }
  }

  /** With fresh identifiers a purchase on a well-formed database never ends
      in a server error. */
  lemma BuyNoServerError(db: Db, user: UserId, course: CourseId, today: Date, order: string, newId: nat, now: int)
    requires WellFormed(db)
    requires FreshOrderId(db.enrollments, order) && FreshId(db.enrollments, newId)
    ensures BuyStatusCode(Buy(db, user, course, today, order, newId, now).0) != 500
  {
    BuyKeepsWellFormed(db, user, course, today, order, newId, now);
  }

  // ---------------------------------------------------------------------------
  // Payment webhook (PaymentWebhookView.post)
  // ---------------------------------------------------------------------------

  datatype WebhookResponse =
    | NoContent       // 204, the acknowledgement
    | MultipleOrders  // 500: `get(order_id=...)` met several rows

  function WebhookStatusCode(r: WebhookResponse): int {
    match r
    case NoContent => 204
    case MultipleOrders => 500
  }

  /** The reported values the webhook acts on; anything else is ignored. */
  function ReportedStatus(reported: Option<string>): (s: Option<Status>)
    ensures s == Some(Success) <==> reported == Some("success")
    ensures s == Some(Failed) <==> reported == Some("failed")
    ensures s != Some(Pending)
  {
    if reported == Some("success") then Some(Success)
    else if reported == Some("failed") then Some(Failed)
    else None
  }

  /** Row `i` is the only one carrying `order`. A missing `order_id` is `None`,
      which the ORM matches against rows whose order column is NULL. */
  predicate OrderAt(ledger: seq<Enrollment>, order: Option<string>, i: int) {
    && 0 <= i < |ledger| && ledger[i].orderId == order
    && forall j :: 0 <= j < |ledger| && ledger[j].orderId == order ==> j == i
  }

  /** The webhook: the enrollment carrying the order takes the reported status
      `success` or `failed`, from whatever status it had. Unknown orders and
      other reported values change nothing, and the reply is 204 unless the
      order matches several rows. */
  function Webhook(db: Db, order: Option<string>, reported: Option<string>): (r: (WebhookResponse, Db))
    ensures r.1.courses == db.courses && r.1.lessons == db.lessons
    ensures r.0 == MultipleOrders <==>
      exists i, j :: 0 <= i < j < |db.enrollments|
        && db.enrollments[i].orderId == order && db.enrollments[j].orderId == order
    ensures r.0 == MultipleOrders ==> r.1 == db
    ensures (forall i :: 0 <= i < |db.enrollments| ==> db.enrollments[i].orderId != order) ==> r.1 == db
    ensures ReportedStatus(reported).None? ==> r.1 == db
    ensures forall i | 0 <= i < |db.enrollments| && OrderAt(db.enrollments, order, i) && ReportedStatus(reported).Some? ::
      r.1.enrollments == db.enrollments[i := db.enrollments[i].(status := ReportedStatus(reported).value)]
  {
    var ledger := db.enrollments;
    match Find(ledger, (e: Enrollment) => e.orderId == order)
    case NoMatch => (NoContent, db)
    case Several => (MultipleOrders, db)
    case Unique(i) =>
      match ReportedStatus(reported)
      case None => (NoContent, db)
      case Some(s) => (NoContent, db.(enrollments := ledger[i := ledger[i].(status := s)]))
  }

  /** When exactly one row carries the order, the callback is acknowledged
      and sets that row's status to the reported one, if it is recognised. */
  lemma WebhookOnUniqueOrder(db: Db, order: Option<string>, reported: Option<string>, i: nat)
    requires OrderAt(db.enrollments, order, i)
    ensures Webhook(db, order, reported).0 == NoContent
    ensures Webhook(db, order, reported).1 ==
      if ReportedStatus(reported).Some?
      then db.(enrollments := db.enrollments[i := db.enrollments[i].(status := ReportedStatus(reported).value)])
      else db
  {
  }

  /** Replaying a callback changes nothing further. */
  lemma {:induction false} WebhookIdempotent(db: Db, order: Option<string>, reported: Option<string>)
    ensures var once := Webhook(db, order, reported);
            Webhook(once.1, order, reported) == once
  {
    var once := Webhook(db, order, reported);
    var ledger := db.enrollments;
    if once.1 != db {
      assert exists i :: 0 <= i < |ledger| && ledger[i].orderId == order;
      var i :| 0 <= i < |ledger| && ledger[i].orderId == order;
      assert OrderAt(ledger, order, i);
      WebhookOnUniqueOrder(db, order, reported, i);
      WebhookReplay(db, order, reported, i);
    }
  }

  /** After a status write on the unique row carrying the order, the same
      callback finds that row again and writes the same status. */
  lemma WebhookReplay(db: Db, order: Option<string>, reported: Option<string>, i: nat)
    requires OrderAt(db.enrollments, order, i) && ReportedStatus(reported).Some?
    ensures var s := ReportedStatus(reported).value;
            var once := db.(enrollments := db.enrollments[i := db.enrollments[i].(status := s)]);
            Webhook(once, order, reported) == (NoContent, once)
  {
    var s := ReportedStatus(reported).value;
    var ledger := db.enrollments;
    var after := ledger[i := ledger[i].(status := s)];
    assert forall k :: 0 <= k < |ledger| ==> after[k].orderId == ledger[k].orderId;
    assert OrderAt(after, order, i);
    assert after[i := after[i].(status := s)] == after;
    WebhookOnUniqueOrder(db.(enrollments := after), order, reported, i);
  }

  /** On a well-formed database every callback that names an order is
      acknowledged with 204, and the database stays well formed. */
  lemma WebhookAcknowledged(db: Db, order: string, reported: Option<string>)
    requires WellFormed(db)
    ensures WebhookStatusCode(Webhook(db, Some(order), reported).0) == 204
    ensures WellFormed(Webhook(db, Some(order), reported).1)
  {
    var ledger := db.enrollments;
    if i :| 0 <= i < |ledger| && ledger[i].orderId == Some(order) {
      assert OrderAt(ledger, Some(order), i);
      WebhookOnUniqueOrder(db, Some(order), reported, i);
      if ReportedStatus(reported).Some? {
        RestatusKeepsWellFormed(db, i, ReportedStatus(reported).value);
      }
    }
  }

  // ---------------------------------------------------------------------------
  // Cancellation (CancelOrderView.get; EnrollmentViewSet.retrieve is identical)
  // ---------------------------------------------------------------------------

  datatype CancelResponse =
    | NotFound         // 404 "Not found"
    | Cancelled        // 200 {"status": "success"}
    | WasPayed         // 418 {"status": "was payed"}
    | MultipleMatches  // 500: `get(pk=..., user=...)` met several rows; unique keys rule it out

  function CancelStatusCode(r: CancelResponse): int {
    match r
    case NotFound => 404
    case Cancelled => 200
    case WasPayed => 418
    case MultipleMatches => 500
  }

  predicate Owned(e: Enrollment, user: UserId, pk: nat) {
    e.id == pk && e.user == user
  }

  /** Row `i` is the only one with key `pk` owned by `user`. */
  predicate OwnedAt(ledger: seq<Enrollment>, user: UserId, pk: nat, i: int) {
    && 0 <= i < |ledger| && Owned(ledger[i], user, pk)
    && forall j :: 0 <= j < |ledger| && Owned(ledger[j], user, pk) ==> j == i
  }

  /** Cancel the caller's enrollment `pk`: a pending or failed one is deleted,
      a paid one is refused and kept. */
  function Cancel(db: Db, user: UserId, pk: nat): (r: (CancelResponse, Db))
    ensures r.1.courses == db.courses && r.1.lessons == db.lessons
    ensures r.0 == NotFound <==> forall i :: 0 <= i < |db.enrollments| ==> !Owned(db.enrollments[i], user, pk)
    ensures r.0 != Cancelled ==> r.1 == db
    ensures forall i | 0 <= i < |db.enrollments| && OwnedAt(db.enrollments, user, pk, i) ::
      && (db.enrollments[i].status == Success <==> r.0 == WasPayed)
      && (db.enrollments[i].status != Success ==>
            r.0 == Cancelled && r.1.enrollments == RemoveAt(db.enrollments, i))
    ensures r.0 == MultipleMatches <==>
      exists i, j :: 0 <= i < j < |db.enrollments|
        && Owned(db.enrollments[i], user, pk) && Owned(db.enrollments[j], user, pk)
  {
    var ledger := db.enrollments;
    match Find(ledger, (e: Enrollment) => Owned(e, user, pk))
    case NoMatch => (NotFound, db)
    case Several => (MultipleMatches, db)
    case Unique(i) =>
      assert forall j | 0 <= j < |ledger| && OwnedAt(ledger, user, pk, j) :: j == i;
      if ledger[i].status == Pending || ledger[i].status == Failed then
        (Cancelled, db.(enrollments := RemoveAt(ledger, i)))
      else
        assert ledger[i].status == Success;
        (WasPayed, db)
  }

  /** On a well-formed database cancellation never meets duplicate keys and
      keeps the database well formed. */
  lemma {:induction false} CancelKeepsWellFormed(db: Db, user: UserId, pk: nat)
    requires WellFormed(db)
    ensures Cancel(db, user, pk).0 != MultipleMatches
    ensures CancelStatusCode(Cancel(db, user, pk).0) != 500
    ensures WellFormed(Cancel(db, user, pk).1)
  {
    var r := Cancel(db, user, pk);
    var ledger := db.enrollments;
    assert DistinctIds(ledger);
    assert forall i, j :: 0 <= i < j < |ledger| ==>
      !(Owned(ledger[i], user, pk) && Owned(ledger[j], user, pk));
    if exists i :: 0 <= i < |ledger| && Owned(ledger[i], user, pk) {
      var i :| 0 <= i < |ledger| && Owned(ledger[i], user, pk);
      assert OwnedAt(ledger, user, pk, i);
      if ledger[i].status != Success {
        UnenrollKeepsWellFormed(db, i);
      }
    }
  }

  // ---------------------------------------------------------------------------
  // Public certificate check (CheckCertificateView.post)
  // ---------------------------------------------------------------------------

  datatype CheckResult = CheckSuccess | CheckFailed
  datatype CheckResponse = CheckResponse(statusCode: int, result: CheckResult)

  /** The `sertikate_number` field: a missing or empty value fails, otherwise
      the code passes exactly when it ends in '1'. Always a 200 reply. */
  function CheckCertificate(code: Option<string>): (r: CheckResponse)
    ensures r.statusCode == 200
    ensures r.result == CheckSuccess <==> code.Some? && EndsWith(code.value, "1")
    ensures code.None? || code.value == "" ==> r.result == CheckFailed
  {
    if code.None? || code.value == "" then CheckResponse(200, CheckFailed)
    else if code.value[|code.value| - 1] == '1' then CheckResponse(200, CheckSuccess)
    else CheckResponse(200, CheckFailed)
  }

  /** Every number the admin action mints passes the public check. */
  lemma MintedCodeAccepted(digits: seq<int>)
    requires Admin.DigitDraws(digits)
    ensures CheckCertificate(Some(Admin.MintCode(digits))).result == CheckSuccess
  {
  }

  /** A certificate printed for a record that had none passes the public check. */
  lemma PrintedCertificateAccepted(ledger: seq<Enrollment>, selected: set<nat>, digits: seq<int>, i: nat)
    requires Admin.DigitDraws(digits)
    requires Admin.SelectsOnly(ledger, selected, i) && !HasCertificate(ledger[i])
    requires Admin.PrintCertificate(ledger, selected, digits).outcome.Printed?
    ensures CheckCertificate(Some(Admin.PrintCertificate(ledger, selected, digits).outcome.code)).result == CheckSuccess
  {
  }

  // ---------------------------------------------------------------------------
  // Order list (MyOrdersView.get) and course detail (CourseViewSet.retrieve)
  // ---------------------------------------------------------------------------

  /** One enrollment with its course, as the order list shows it. */
  function OrderOf(e: Enrollment, courses: seq<Course>, mediaRoot: string): (v: OrderView)
    requires e.course in CourseIds(courses) && DatesValid(courses)
    ensures v.id == e.id && v.course.id == e.course
    ensures v.paymentStatus == Key(e.status)
    ensures v.course == SerializeCourse(FindCourse(courses, e.course).value, mediaRoot)
  {
    SerializeEnrollment(e, FindCourse(courses, e.course).value, mediaRoot)
  }

  /** The entry `v` shows the enrollment `e`. */
  predicate Shows(v: OrderView, e: Enrollment) {
    v.id == e.id && v.paymentStatus == Key(e.status) && v.course.id == e.course
  }

  /** `v` shows some row of `user` in the ledger. */
  ghost predicate ShowsRowOf(v: OrderView, ledger: seq<Enrollment>, user: UserId) {
    exists i :: 0 <= i < |ledger| && ledger[i].user == user && Shows(v, ledger[i])
  }

  /** Some entry of `r` shows `e`. */
  ghost predicate Listed(r: seq<OrderView>, e: Enrollment) {
    exists k :: 0 <= k < |r| && Shows(r[k], e)
  }

  /** Membership of an enrollment in `user`'s orders, as a row test. */
  function OfUser(user: UserId): Enrollment -> bool {
    (e: Enrollment) => e.user == user
  }

  /** `Enrollment.objects.filter(user=user).count()`. */
  function OrderCount(ledger: seq<Enrollment>, user: UserId): nat {
    Count(ledger, OfUser(user))
  }

  /** `GET orders`: each of the caller's enrollments once, with its raw status
      key and its full course. The query declares no ordering; position order
      stands for whatever order the database returns. */
  function MyOrders(db: Db, user: UserId, mediaRoot: string): (r: seq<OrderView>)
    requires CatalogSound(db)
    ensures |r| == OrderCount(db.enrollments, user)
    ensures forall k :: 0 <= k < |r| ==>
      r[k] == OrderOf(db.enrollments[CallerRows(db.enrollments, user)[k]], db.courses, mediaRoot)
    ensures forall k :: 0 <= k < |r| ==> ShowsRowOf(r[k], db.enrollments, user)
    ensures forall i :: 0 <= i < |db.enrollments| && db.enrollments[i].user == user ==>
      Listed(r, db.enrollments[i])
  {
    var ix := CallerRows(db.enrollments, user);
    OrdersMatchRows(db.enrollments, user, ix, RenderRows(db.enrollments, ix, db.courses, mediaRoot));
    RenderRows(db.enrollments, ix, db.courses, mediaRoot)
  }

  /** The positions of `user`'s rows: every one of them, each once, in increasing position. */
  function CallerRows(ledger: seq<Enrollment>, user: UserId): (ix: seq<nat>)
    ensures forall k :: 0 <= k < |ix| ==> ix[k] < |ledger| && ledger[ix[k]].user == user
    ensures forall i :: 0 <= i < |ledger| && ledger[i].user == user ==> i in ix
    ensures forall k, l :: 0 <= k < l < |ix| ==> ix[k] < ix[l]
    ensures |ix| == OrderCount(ledger, user)
  {
    FindAllCount(ledger, OfUser(user));
    FindAll(ledger, OfUser(user))
  }

  /** The rows at positions `ix`, rendered in that order. */
  function RenderRows(ledger: seq<Enrollment>, ix: seq<nat>, courses: seq<Course>, mediaRoot: string)
    : (r: seq<OrderView>)
    requires DatesValid(courses)
    requires forall k :: 0 <= k < |ix| ==> ix[k] < |ledger|
    requires forall e | e in ledger :: e.course in CourseIds(courses)
    ensures |r| == |ix|
    ensures forall k :: 0 <= k < |r| ==> Shows(r[k], ledger[ix[k]])
    ensures forall k :: 0 <= k < |r| ==> r[k] == OrderOf(ledger[ix[k]], courses, mediaRoot)
  {
    assert forall k :: 0 <= k < |ix| ==> ledger[ix[k]] in ledger;
    seq(|ix|, k requires 0 <= k < |ix| => OrderOf(ledger[ix[k]], courses, mediaRoot))
  }

  /** Entries rendered from the caller's row positions correspond one to one
      with the caller's rows. */
  lemma OrdersMatchRows(ledger: seq<Enrollment>, user: UserId, ix: seq<nat>, r: seq<OrderView>)
    requires forall k :: 0 <= k < |ix| ==> ix[k] < |ledger| && ledger[ix[k]].user == user
    requires forall i :: 0 <= i < |ledger| && ledger[i].user == user ==> i in ix
    requires |r| == |ix|
    requires forall k :: 0 <= k < |r| ==> Shows(r[k], ledger[ix[k]])
    ensures forall k :: 0 <= k < |r| ==> ShowsRowOf(r[k], ledger, user)
    ensures forall i :: 0 <= i < |ledger| && ledger[i].user == user ==> Listed(r, ledger[i])
  {
  }

  /** The positions of `course`'s lessons: every one of them, each once, in increasing position. */
  function LessonRows(lessons: seq<Lesson>, course: CourseId): (ix: seq<nat>)
    ensures forall k :: 0 <= k < |ix| ==> ix[k] < |lessons| && lessons[ix[k]].course == course
    ensures forall i :: 0 <= i < |lessons| && lessons[i].course == course ==> i in ix
    ensures forall k, l :: 0 <= k < l < |ix| ==> ix[k] < ix[l]
    ensures |ix| == LessonCount(lessons, course)
  {
    FindAllCount(lessons, OfCourse(course));
    FindAll(lessons, OfCourse(course))
  }

  /** `GET courses/<pk>`: each of the course's lessons once, or `None` (404)
      when there is no such course. Position order stands for the database's
      unspecified one. */
  function CourseLessons(db: Db, course: CourseId): (r: Option<seq<LessonView>>)
    ensures r.None? <==> FindCourse(db.courses, course).None?
    ensures r.Some? ==> |r.value| == LessonCount(db.lessons, course)
    ensures r.Some? ==> forall k :: 0 <= k < |r.value| ==>
      r.value[k] == SerializeLesson(db.lessons[LessonRows(db.lessons, course)[k]])
    ensures r.Some? ==> forall l :: l in db.lessons && l.course == course ==>
      SerializeLesson(l) in r.value
  {
    if FindCourse(db.courses, course).None? then None
    else
      var ix := LessonRows(db.lessons, course);
      var views := seq(|ix|, k requires 0 <= k < |ix| => SerializeLesson(db.lessons[ix[k]]));
      LessonsListed(db.lessons, course, ix, views);
      Some(views)
  }

  /** Views rendered from all of a course's lesson positions list every lesson
      of that course. */
  lemma LessonsListed(lessons: seq<Lesson>, course: CourseId, ix: seq<nat>, views: seq<LessonView>)
    requires forall i :: 0 <= i < |lessons| && lessons[i].course == course ==> i in ix
    requires |views| == |ix|
    requires forall k :: 0 <= k < |ix| ==> ix[k] < |lessons| && views[k] == SerializeLesson(lessons[ix[k]])
    ensures forall l :: l in lessons && l.course == course ==> SerializeLesson(l) in views
  {
    forall l | l in lessons && l.course == course
      ensures SerializeLesson(l) in views
    {
      var i := IndexOf(lessons, l);
      var k := IndexOf(ix, i);
      assert views[k] == SerializeLesson(l);
    }
  }
}
